=== FILE: README.md ===
# Aquadata derived metrics and alerting, in Dafny

A model of the domain logic of the aquadata aquaculture dashboard: the
calculations that turn pond and batch measurements into derived values,
alerts and dosing advice. The operations are pure functions over immutable
records. The exceptions are the two charts that compute running totals,
`Charts.RunningTotals` and `Charts.MortalityChart`, which are methods with a
loop. Nullable columns are `Option`, quantities are `real`, and counts and
populations are `int`.

- `Production` (app/dashboard/upload/actions.ts): confirming a production
  record. Biomass and feed conversion ratio (FCA) from the batch population
  (`current_population ?? initial_population`) and the latest existing record,
  the population after mortality, the stored row, and the alerts.
- `Alerting`: the four threshold rules of that action (low oxygen, high
  ammonia, high mortality, high FCA), their severities and their order.
- `JsNumbers`: the JavaScript semantics the action relies on: truthiness of a
  `number | null` (0 counts as null in `if (x)`), division by zero giving an
  infinity, comparing it with a threshold, and `JSON.stringify` writing a
  non-finite number as `null`.
- `DoseTiers`, `DoseForm`, `PublicDose` (components/bioremediation-form.tsx,
  components/public-bioremediation.tsx): the dose step table, the first-match
  lookup with inclusive upper bounds, the volume and total-dose calculation,
  and the proof that the two copies of the calculator agree on every input.
- `Costs` (app/dashboard/costs/page.tsx): per-treatment revenue and ammonia
  reduction, totals, the average over defined values only, the average
  ticket, the badge bands.
- `AlertList` (app/dashboard/alerts/page.tsx): opportunity types, unread and
  opportunity counters, severity and type labels with their fallbacks, and
  what each alert card shows.
- `Charts` (components/analytics-charts.tsx): the series behind each chart,
  i.e. the records with the plotted value, sorted by date, and the running
  mortality total.
- `Ponds` (app/dashboard/ponds/actions.ts): batch creation and closing, the
  population invariant across any sequence of confirmations and closings,
  and pond creation.
- `Dates`: the order on `YYYY-MM-DD` strings used for sorting and for
  "latest record".
- `Wrappers`: `Option` and `??`.

Three facts about the code that the model keeps:

- The confirmation action checks neither that the batch exists nor that it is
  active. A missing batch still gets a record, with no biomass, no FCA and no
  population update. A closed batch is updated like an open one
  (`Ponds.ClosedBatchStillTakesMortality`).
- The population update and the record insert are two separate writes.
- The two smallest size labels are "Muy pequeno" and "Pequeno", as written in
  components/bioremediation-form.tsx:13-14.

## Model

| member | source | states |
|---|---|---|
| `Production.Population` | app/dashboard/upload/actions.ts:38 | a stored current population, even 0, is used; the initial one only when current is null |
| `Production.BiomassKg` | app/dashboard/upload/actions.ts:37-40 | biomass exists iff there is a batch and a non-null, non-zero weight; then biomass x 1000 = population x weight; it is 0 only for population 0 |
| `Production.FcaAsWritten` | app/dashboard/upload/actions.ts:43-60 | an FCA is computed iff feed, weight and previous weight are non-zero, the weight rose and the batch exists; it is finite iff the population is not 0; then FCA x gain = feed |
| `Production.Fca` | app/dashboard/upload/actions.ts:43-60 | the corrected FCA: present iff those conditions hold and the population is not 0; FCA x gain = feed; positive for positive feed and population |
| `Production.FcaMatchesAsWritten` | app/dashboard/upload/actions.ts:56-57 | where the corrected FCA exists it equals the action's value; where it does not, the action stores null too |
| `Production.NoFcaWithoutGain` | app/dashboard/upload/actions.ts:53-54 | a weight that did not rise gives no FCA, whatever the feed |
| `Production.FcaExample` | app/dashboard/upload/actions.ts:53-57 | 10 g to 15 g, population 10000, 30 kg feed gives FCA 0.6 |
| `Production.NewPopulation` | app/dashboard/upload/actions.ts:62-69 | the population is rewritten iff the batch exists and mortality > 0; the new value is >= 0, is 0 iff mortality >= population, otherwise population minus mortality |
| `Production.MortalityExamples` | app/dashboard/upload/actions.ts:63-67 | 10000 and 150 deaths give 9850; more deaths than fish give 0 |
| `Production.OwnMortalityDoesNotAffectMetrics` | app/dashboard/upload/actions.ts:37-69 | changing a record's mortality never changes its own biomass or FCA |
| `Production.Assemble` | app/dashboard/upload/actions.ts:71-160 | the record stores the submitted batch, date, feed, weight, water readings and notes unchanged; it carries the user; the stored FCA is the in-memory FCA as serialised; stored mortality is `count ?? 0`; no organization means no alerts, and with one the alerts are exactly `Alerting.Evaluate` of the oxygen, ammonia, mortality count and in-memory FCA, types and severities included |
| `Production.ConfirmAsWritten` | app/dashboard/upload/actions.ts:21-166 | the action as written: rejected iff there is no signed-in user; stores the submitted readings unchanged; with an organization, a high-FCA alert is raised iff the in-memory FCA, possibly Infinity, exceeds 2.5, and the alerts are exactly `Alerting.Evaluate` of the readings with that FCA |
| `Production.AsWrittenDiffersOnlyOnEmptyBatch` | app/dashboard/upload/actions.ts:37-156 | the action as written and the corrected one store the same record and population; their alerts differ only when the FCA applies to a batch of population 0 |
| `Production.Confirm` | app/dashboard/upload/actions.ts:21-166 | rejected iff no user; the stored record carries the submitted batch, date, feed, weight, water readings and notes unchanged, plus the user, biomass, corrected FCA and `count ?? 0`; the new population is the mortality update; with an organization, a high-FCA alert is raised iff the stored FCA exceeds 2.5, and the alerts are exactly `Alerting.Evaluate` of the readings with the corrected FCA |
| `Production.ConfirmAlertRules` | app/dashboard/upload/actions.ts:114-156 | with an organization, each alert type is raised iff its reading is non-null and strictly past its threshold, in rule order; low oxygen is critical iff below 2, high ammonia iff above 1.5, high mortality iff above 50; high FCA is always a warning |
| `Production.CriticalOxygenStored` | app/dashboard/upload/actions.ts:114-125 | oxygen 1.5 with an organization stores exactly one low-oxygen alert, of severity critical |
| `Production.Latest` | app/dashboard/upload/actions.ts:44-50 | the consulted record exists iff the batch has records, is one of them, and no record has a later date |
| `Production.LatestWithoutWeightGivesNoFca` | app/dashboard/upload/actions.ts:44-59 | only the latest record is consulted: if it has no weight there is no FCA, though an older record would have given 0.6 |
| `Production.EmptyBatchRaisesFcaAlertAsWritten` | app/dashboard/upload/actions.ts:53-156 | as written, population 0 stores no FCA yet raises a high-FCA alert; the corrected model raises none |
| `Alerting.Evaluate` | app/dashboard/upload/actions.ts:105-156 | at most four alerts, each type at most once, in the order oxygen, ammonia, mortality, FCA |
| `Alerting.EvaluateRules` | app/dashboard/upload/actions.ts:114-156 | oxygen < 4, ammonia > 0.5, mortality > 10 and FCA > 2.5 each raise their alert iff the value is non-null; critical iff oxygen < 2, ammonia > 1.5, mortality > 50; FCA is always a warning; nothing is info |
| `Alerting.OxygenRule` | app/dashboard/upload/actions.ts:114-123 | fires iff oxygen is non-null and < 4, critical iff < 2 |
| `Alerting.AmmoniaRule` | app/dashboard/upload/actions.ts:125-134 | fires iff ammonia is non-null and > 0.5, critical iff > 1.5 |
| `Alerting.MortalityRule` | app/dashboard/upload/actions.ts:136-145 | fires iff mortality is non-null and > 10, critical iff > 50 |
| `Alerting.FcaRule` | app/dashboard/upload/actions.ts:147-156 | fires iff the FCA is non-null and exceeds 2.5; always a warning |
| `Alerting.BoundaryValuesRaiseNothing` | app/dashboard/upload/actions.ts:114-147 | oxygen 4, ammonia 0.5, mortality 10 and FCA 2.5 raise nothing |
| `Alerting.OxygenExamples` | app/dashboard/upload/actions.ts:114-123 | oxygen 1.5 is critical, 3.5 a warning, 5 nothing, and 0 is critical (not treated as null) |
| `JsNumbers.Divide` | app/dashboard/upload/actions.ts:57 | division is finite iff the divisor is non-zero, then result x divisor = dividend; +infinity iff dividing a positive number by 0 |
| `JsNumbers.ToJson` | app/dashboard/upload/actions.ts:84 | a stored FCA exists iff the in-memory one is finite, and then equals it |
| `JsNumbers.Truthy` | app/dashboard/upload/actions.ts:37-52 | null and 0 are falsy; every other number, negative ones included, is truthy |
| `JsNumbers.TruthyInt` | app/dashboard/upload/actions.ts:63 | a null or zero count is falsy; every other count is truthy |
| `JsNumbers.Exceeds` | app/dashboard/upload/actions.ts:147 | a finite ratio exceeds the threshold iff it is greater; +Infinity exceeds every threshold, -Infinity none |
| `DoseTiers.FirstFit` | components/bioremediation-form.tsx:21 | the index found admits the volume and no earlier tier does; none found means no tier admits it |
| `DoseTiers.Lookup` | components/bioremediation-form.tsx:20-23 | the selected tier is a table entry |
| `DoseTiers.AlwaysFits` | components/bioremediation-form.tsx:17-22 | with an unbounded last tier some tier always matches, so the fallback is never used |
| `DoseTiers.FirstFitMonotone` | components/bioremediation-form.tsx:12-21 | a larger volume never selects an earlier tier |
| `DoseTiers.RateNonIncreasing` | components/bioremediation-form.tsx:12-21 | a larger volume never gets a higher rate |
| `DoseTiers.LookupInRange` | components/bioremediation-form.tsx:20-23 | the tier selected is the one whose range (previous bound, own bound] holds the volume |
| `DoseForm.DoseTableWellFormed` | components/bioremediation-form.tsx:12-18 | the table's bounds (50, 200, 500, 1000, then Infinity) ascend strictly with the last one unbounded, and the rates strictly decrease |
| `DoseForm.GetDose` | components/bioremediation-form.tsx:20-23 | the tier returned is in the table and admits the volume |
| `DoseForm.GetDoseIsSizeBand` | components/bioremediation-form.tsx:20-23 | the first-match lookup equals the reference banding by inclusive upper bounds |
| `DoseForm.GetDoseBoundaries` | components/bioremediation-form.tsx:12-23 | 50 gives "Muy pequeno"/0.5; any volume above 50 up to 200 gives "Pequeno"/0.4; 1000 gives "Grande"; above 1000 the rate is 0.25 |
| `DoseForm.GetDoseRateNonIncreasing` | components/bioremediation-form.tsx:12-21 | the rate never increases with the volume |
| `DoseForm.Calculate` | components/bioremediation-form.tsx:38-49 | no result iff a dimension is <= 0; else volume = l x w x d, total = volume x rate, and rate and label are those of `getDose` for that volume, the first tier admitting it; volume and total are positive |
| `DoseForm.CalculateExample` | components/bioremediation-form.tsx:45-49 | 20 x 10 x 1.5 gives 300 m3, "Mediano", 0.35, 105 L |
| `DoseForm.HandleCalculate` | components/bioremediation-form.tsx:38-51 | invalid dimensions leave the state unchanged; valid ones show the result and clear the saved flag |
| `PublicDose.GetDose` | components/public-bioremediation.tsx:18-21 | the tier returned is an entry of this copy's table |
| `PublicDose.Calculate` | components/public-bioremediation.tsx:34-43 | no result iff a dimension is <= 0; else volume = l x w x d, total = volume x rate, and rate and label are those of this file's `getDose` for that volume |
| `PublicDose.HandleCalculate` | components/public-bioremediation.tsx:34-43 | invalid dimensions leave the shown result unchanged |
| `PublicDose.TablesIdentical` | components/public-bioremediation.tsx:10-16 | this table equals the dashboard's, entry for entry |
| `PublicDose.GetDoseAgrees` | components/public-bioremediation.tsx:18-21 | both lookups select the same tier for every volume |
| `PublicDose.CalculatorsAgree` | components/public-bioremediation.tsx:34-43 | both calculators give the same result, or both none, for all dimensions |
| `PublicDose.HandleCalculateAgrees` | components/public-bioremediation.tsx:34-43 | from the same shown result, a click shows the same result in both |
| `Costs.NormalizeDose` | app/dashboard/costs/page.tsx:57 | a missing or non-numeric dose is 0 litres, any other dose is kept |
| `Costs.Effectiveness` | app/dashboard/costs/page.tsx:58-63 | defined iff both readings exist and before > 0; effectiveness x before = (before - after) x 100; negative iff ammonia rose; <= 100 when after >= 0; 100 iff after = 0 |
| `Costs.EffectivenessExamples` | app/dashboard/costs/page.tsx:58-63 | 2.0 to 0.5 is 75; 0.5 to 1.0 is -100; before 0 gives nothing |
| `Costs.PondName` | app/dashboard/costs/page.tsx:66 | the pond's name, or "Sin estanque" for an unknown pond |
| `Costs.ToRow` | app/dashboard/costs/page.tsx:56-76 | revenue = dose x 12.50 with the normalised dose; effectiveness from the readings; the pond name is the map's entry or "Sin estanque"; date, product, ammonia readings and notes are the treatment's own |
| `Costs.TotalLiters` | app/dashboard/costs/page.tsx:79 | 0 with no treatments, and non-negative when no dose is negative; `Costs.TotalLitersAppend` fixes its value |
| `Costs.TotalLitersAppend` | app/dashboard/costs/page.tsx:79 | the `reduce` left fold: a treatment added at the end adds exactly its litres, so with the empty case the total is the sum of the doses |
| `Costs.TotalRevenue` | app/dashboard/costs/page.tsx:80 | 0 with no treatments, and non-negative when no revenue is negative; `Costs.TotalRevenueAppend` fixes its value and `Costs.TotalRevenueIsPricedLiters` ties it to the litres |
| `Costs.TotalRevenueAppend` | app/dashboard/costs/page.tsx:80 | a treatment added at the end adds exactly its revenue, so with the empty case the total is the sum of the revenues |
| `Costs.Rows` | app/dashboard/costs/page.tsx:56-76 | one row per treatment, in order |
| `Costs.TotalRevenueIsPricedLiters` | app/dashboard/costs/page.tsx:79-80 | total revenue = total litres x 12.50 |
| `Costs.CountZeroMeansNoneDefined` | app/dashboard/costs/page.tsx:83-84 | the number of defined values is 0 iff no treatment has effectiveness |
| `Costs.AverageEffectiveness` | app/dashboard/costs/page.tsx:82-86 | no average iff no treatment has effectiveness; otherwise average x (number of treatments with a value) = sum of those values, so it is their arithmetic mean |
| `Costs.AverageWithin` | app/dashboard/costs/page.tsx:82-86 | the average lies within any bounds of the defined values, hence between their min and max |
| `Costs.AverageIgnoresUndefined` | app/dashboard/costs/page.tsx:83-85 | a treatment without effectiveness leaves the average unchanged |
| `Costs.AverageExample` | app/dashboard/costs/page.tsx:82-86 | 75, none and -100 average to -12.5 |
| `Costs.MeanExample` | app/dashboard/costs/page.tsx:82-86 | 75, 60 and -100 average to 35/3, the mean and not the midpoint of the extremes |
| `Costs.AverageTicket` | app/dashboard/costs/page.tsx:138 | 0 with no treatments, else ticket x count = total revenue |
| `Costs.Badge` | app/dashboard/costs/page.tsx:217-221 | effective iff >= 60, moderate iff in [30, 60), poor iff < 30 |
| `AlertList.Unread` | app/dashboard/alerts/page.tsx:54 | exactly the unread alerts |
| `AlertList.UnreadOpportunities` | app/dashboard/alerts/page.tsx:55 | exactly the unread alerts of an opportunity type |
| `AlertList.UnreadCount` | app/dashboard/alerts/page.tsx:54 | at most the number of alerts in the list the page read (at most 100), and 0 iff every alert in it is read |
| `AlertList.OpportunityCount` | app/dashboard/alerts/page.tsx:55 | at most the number of alerts in the list the page read (at most 100), and 0 iff every alert in it is read or not an opportunity type |
| `AlertList.OpportunitiesAreUnread` | app/dashboard/alerts/page.tsx:54-55 | the opportunity list is the opportunity filter applied to the unread list |
| `AlertList.CountsOrdered` | app/dashboard/alerts/page.tsx:54-55 | opportunity count <= unread count <= number of alerts |
| `AlertList.CountsSplit` | app/dashboard/alerts/page.tsx:54-55 | both counters add up over two parts of the list |
| `AlertList.SeverityConfig` | app/dashboard/alerts/page.tsx:57-61 | "critical" and "warning" get their own style; every other severity falls back to info (line 100) |
| `AlertList.TypeLabel` | app/dashboard/alerts/page.tsx:63-68 | the four known types get their Spanish labels |
| `AlertList.TypeLabelFallback` | app/dashboard/alerts/page.tsx:136 | the raw type is shown iff it is not one of the four known types |
| `AlertList.PondBadge` | app/dashboard/alerts/page.tsx:138 | a pond badge iff the alert has a non-empty pond id with a non-empty known name |
| `AlertList.Present` | app/dashboard/alerts/page.tsx:100-158 | the "Oportunidad" badge and the treatment link appear iff the alert is an unread opportunity; the icon is primary iff an opportunity, destructive iff otherwise critical; read alerts are dimmed; the type label is `typeLabels` with the raw type as fallback; the pond badge is the looked-up pond name, if any |
| `AlertList.GeneratedAlertsDisplay` | app/dashboard/alerts/page.tsx:7 | an alert raised at confirmation is an opportunity iff it is about oxygen or ammonia, always has its own label, and keeps its severity style |
| `Dates.LexLeTotal` | components/analytics-charts.tsx:43 | any two dates are ordered one way or the other |
| `Dates.LexLeTransitive` | components/analytics-charts.tsx:43 | the date order is transitive |
| `Dates.LexLeAntisymmetric` | components/analytics-charts.tsx:43 | dates ordered both ways are equal |
| `Charts.Filter` | components/analytics-charts.tsx:42 | keeps each admitted record as often as the input has it, and nothing else |
| `Charts.Insert` | components/analytics-charts.tsx:43 | inserting adds exactly one record |
| `Charts.InsertSorted` | components/analytics-charts.tsx:43 | inserting into a date-sorted list keeps it sorted |
| `Charts.SortByDate` | components/analytics-charts.tsx:43 | the result is sorted by date and a permutation of the input |
| `Charts.Series` | components/analytics-charts.tsx:41-48 | a chart's records are sorted by date and all admitted |
| `Charts.SeriesIsFilteredPermutation` | components/analytics-charts.tsx:41-43 | each admitted record appears as often as in the input, others never |
| `Charts.Plot` | components/analytics-charts.tsx:44-48 | one point per record, carrying its date and its non-null value |
| `Charts.WeightChart` | components/analytics-charts.tsx:40-48 | one point per record with a weight, by date, with that weight |
| `Charts.FeedChart` | components/analytics-charts.tsx:90-97 | one bar per record with feed, by date, with that feed |
| `Charts.WaterQualityChart` | components/analytics-charts.tsx:123-131 | points for exactly the records with temperature or oxygen, by date |
| `Charts.NitrogenChart` | components/analytics-charts.tsx:181-191 | points for exactly the records with ammonia, nitrite or nitrate, by date, each carrying that record's ammonia, nitrite, nitrate and pH |
| `Charts.FcaChart` | components/analytics-charts.tsx:261-268 | one point per record with a stored FCA, by date |
| `Charts.TotalSort` | components/analytics-charts.tsx:222-227 | sorting does not change the total mortality |
| `Charts.Daily` | components/analytics-charts.tsx:227 | a record's daily count is its mortality, and 0 when that is null |
| `Charts.Total` | components/analytics-charts.tsx:225-227 | no records total 0; the total is built from the back, and `Charts.TotalPrepend` checks it from the front |
| `Charts.TotalPrepend` | components/analytics-charts.tsx:225-227 | a record put in front adds exactly its daily count to the total |
| `Charts.RunningTotals` | components/analytics-charts.tsx:225-233 | one point per record; the i-th cumulative value is the sum of the first i+1 daily counts, null as 0 |
| `Charts.MortalityChart` | components/analytics-charts.tsx:221-233 | as many points as records, by date; each point carries its record's daily count and the total so far; the last cumulative value is the total; with non-negative counts the series never decreases |
| `Charts.TotalMonotone` | components/analytics-charts.tsx:227 | with non-negative counts a longer prefix never has a smaller total; with the empty prefix this makes every total non-negative |
| `Ponds.CreateBatch` | app/dashboard/ponds/actions.ts:59-68 | a new batch is active, with no end date, current = initial population, and the given pond and start date |
| `Ponds.CloseBatch` | app/dashboard/ponds/actions.ts:74-78 | closing sets status and end date and changes nothing else |
| `Ponds.Confirm` | app/dashboard/upload/actions.ts:63-69 | for positive mortality the current population becomes the mortality update; otherwise the batch is unchanged; pond, start date, end date, status and initial population never change; status is not checked |
| `Ponds.ApplyKeepsBounds` | app/dashboard/upload/actions.ts:63-69 | one confirmation or closing keeps 0 <= current <= initial and never raises the population |
| `Ponds.ReplayKeepsBounds` | app/dashboard/upload/actions.ts:63-69 | any sequence of confirmations and closings keeps 0 <= current <= initial, never raises it, and never changes the initial population |
| `Ponds.CreatedBatchStaysInBounds` | app/dashboard/ponds/actions.ts:62-67 | from creation with initial >= 0, any event sequence keeps 0 <= current <= initial |
| `Ponds.ClosedBatchStillTakesMortality` | app/dashboard/upload/actions.ts:31-69 | a closed batch of 100 sent 30 deaths goes down to 70 |
| `Ponds.NumberOrNull` | app/dashboard/ponds/actions.ts:42-43 | area and depth are kept iff present and non-zero, otherwise null |
| `Ponds.TextOr` | app/dashboard/ponds/actions.ts:35 | a non-empty field is kept, an empty or missing one takes the fallback |
| `Ponds.CreatePond` | app/dashboard/ponds/actions.ts:20-50 | rejected iff not signed in; an organization is created iff the profile has none, named from the form or "Mi Granja"; the pond is active and carries the form's name; area, depth and species are null iff zero or empty, and otherwise the form's values |
| `Ponds.CreatePondWithoutOrganization` | app/dashboard/ponds/actions.ts:31-46 | with no organization, a zero area, no depth and an empty species, the plan creates "Mi Granja" and stores all three as null |

## Findings

| source | as written | input that shows it | evidently intended | confidence | as-written member | corrected member |
|---|---|---|---|---|---|---|
| app/dashboard/upload/actions.ts:54-57 | the FCA divides feed by the batch's weight gain without checking the population. At population 0 the gain is 0 kg and the FCA is Infinity. The insert serialises it as null, but `Infinity > 2.5` still raises a high-FCA alert | current population 0, previous weight 10 g, weight 20 g, feed 5 kg, user with an organization | no FCA and no FCA alert when the batch has no fish to gain weight | medium, not executed | `Production.ConfirmAsWritten`, shown by `Production.EmptyBatchRaisesFcaAlertAsWritten` | `Production.Confirm` |

## Left out

- Database reads and writes, authentication lookups and `revalidatePath` are left out. Their results are parameters: the batch snapshot, the latest record, the user and the organization.
- The costs and alerts pages show nothing when the profile has no organization (app/dashboard/costs/page.tsx:40, app/dashboard/alerts/page.tsx:31). The model has no profile. In that case the treatment list given to `Costs.Rows` and the alert list given to the `AlertList` functions are empty. With an organization, the alerts page reads only its 100 most recent alerts by `created_at` (app/dashboard/alerts/page.tsx:37-38). The `AlertList` functions work on whatever list they are given, so `AlertList.UnreadCount` and `AlertList.OpportunityCount` count only within those 100 and never exceed 100; older unread alerts are not counted.
- The insert error path is left out. When the record insert fails the action throws, after the population was already written. The model describes only the values computed.
- Alert messages and all number formatting (`toFixed`, `toLocaleString`, `formatDate`) are display text. The ids an alert row carries are not modelled, except its pond id (app/dashboard/upload/actions.ts:117), which `AlertList.PondBadge` looks up.
- The OCR route, the AI provider, and the upload and manual-entry forms are left out as I/O. Of the alert cards, the severity style, icon tone, badges, treatment link and dimming are modelled in `AlertList.Present`. All other rendering, layout, colours and icons are left out as presentation.
- `handleSave` of the dashboard calculator is left out because it is a database insert. It re-reads the dimension fields at save time, not the ones the shown result was computed from.
- `deletePond` and `getOrCreateOrganization` are left out. Each is a single database call. The new organization's id is a parameter of `Ponds.CreatePond`.
- IEEE doubles are modelled as `real`. Rounding and NaN are not modelled; for example, `Number('abc')` passes the `<= 0` guard of the calculators in JavaScript. Form inputs are taken as already-parsed numbers, with `None` for missing or non-numeric.
- Mortality counts and populations are modelled as integers, as the database columns are.
- `Dates.LexLe`: `localeCompare` and the database's date order are modelled as character order. The two agree on `YYYY-MM-DD` strings but not on arbitrary text.
- `Production.Latest`: among records sharing the latest date the database returns any one; the model picks the first.
- `Charts.SortByDate`: the JavaScript sort is stable and so is the model's insertion, but stability is not stated in the contract.
- `Charts.MortalityChart`: in the source this chart sorts the caller's array in place. The model returns a sorted copy.
- `Charts.FcaChart`: the rounding of the plotted FCA to two decimals is not modelled.

=== FILE: alert_list.dfy ===
/**
 * The alerts page: which alerts count as bioremediation opportunities, the
 * unread and opportunity counters, and how each alert card is labelled.
 */
module AlertList {
  import opened Wrappers
  import Alerting

  /** An `alerts` row as listed; type and severity are free strings in the table. */
  datatype AlertRow = AlertRow(
    alertType: string,
    severity: string,
    message: string,
    isRead: bool,
    createdAt: string,
    pondId: Option<string>)

  /** Alert types that suggest applying a bioremediation treatment. */
  const OpportunityTypes: seq<string> := ["high_ammonia", "low_oxygen"]

  predicate IsOpportunity(alertType: string) {
    alertType in OpportunityTypes
  }

  /** `alerts.filter(a => !a.is_read)`. */
  function Unread(alerts: seq<AlertRow>): (r: seq<AlertRow>)
    ensures |r| <= |alerts|
    ensures forall a :: a in r <==> a in alerts && !a.isRead
  {
    if |alerts| == 0 then []
    else (if !alerts[0].isRead then [alerts[0]] else []) + Unread(alerts[1..])
  }

  /** `alerts.filter(a => !a.is_read && OPPORTUNITY_TYPES.includes(a.alert_type))`. */
  function UnreadOpportunities(alerts: seq<AlertRow>): (r: seq<AlertRow>)
    ensures |r| <= |alerts|
    ensures forall a :: a in r <==> a in alerts && !a.isRead && IsOpportunity(a.alertType)
  {
    if |alerts| == 0 then []
    else (if !alerts[0].isRead && IsOpportunity(alerts[0].alertType) then [alerts[0]] else [])
         + UnreadOpportunities(alerts[1..])
  }

  /** The "sin leer" counter. */
  function UnreadCount(alerts: seq<AlertRow>): (c: nat)
    ensures c <= |alerts|
    ensures c == 0 <==> forall a :: a in alerts ==> a.isRead
  {
    var u := Unread(alerts);
    assert |u| > 0 ==> u[0] in u;
    |u|
  }

  /** The "oportunidades de tratamiento" counter. */
  function OpportunityCount(alerts: seq<AlertRow>): (c: nat)
    ensures c <= |alerts|
    ensures c == 0 <==> forall a :: a in alerts ==> a.isRead || !IsOpportunity(a.alertType)
  {
    var u := UnreadOpportunities(alerts);
    assert |u| > 0 ==> u[0] in u;
    |u|
  }

  /** Opportunities are the opportunity-typed alerts among the unread ones. */
  lemma {:induction false} OpportunitiesAreUnread(alerts: seq<AlertRow>)
    ensures UnreadOpportunities(alerts) == UnreadOpportunities(Unread(alerts))
  {
    if |alerts| > 0 {
      OpportunitiesAreUnread(alerts[1..]);
      var head := if !alerts[0].isRead then [alerts[0]] else [];
      assert Unread(alerts) == head + Unread(alerts[1..]);
      if !alerts[0].isRead {
        var u := Unread(alerts);
        assert u[0] == alerts[0];
        assert u[1..] == Unread(alerts[1..]);
        assert UnreadOpportunities(u)
            == (if IsOpportunity(u[0].alertType) then [u[0]] else []) + UnreadOpportunities(u[1..]);
        assert UnreadOpportunities(alerts)
            == (if IsOpportunity(alerts[0].alertType) then [alerts[0]] else []) + UnreadOpportunities(alerts[1..]);
      } else {
        assert Unread(alerts) == Unread(alerts[1..]);
      }
    }
  }

  /** Every unread opportunity is unread, and every unread alert is listed. */
  lemma {:induction false} CountsOrdered(alerts: seq<AlertRow>)
    ensures OpportunityCount(alerts) <= UnreadCount(alerts) <= |alerts|
  {
    OpportunitiesAreUnread(alerts);
  }

  /** The counters add up over the two parts of a list. */
  lemma {:induction false} CountsSplit(a: seq<AlertRow>, b: seq<AlertRow>)
    ensures UnreadCount(a + b) == UnreadCount(a) + UnreadCount(b)
    ensures OpportunityCount(a + b) == OpportunityCount(a) + OpportunityCount(b)
  {
    UnreadSplit(a, b);
    OpportunitiesSplit(a, b);
  }

  /** The unread filter distributes over concatenation. */
  lemma {:induction false} UnreadSplit(a: seq<AlertRow>, b: seq<AlertRow>)
    ensures Unread(a + b) == Unread(a) + Unread(b)
  {
    if |a| == 0 {
      assert a + b == b;
    } else {
      var head := if !a[0].isRead then [a[0]] else [];
      assert (a + b)[1..] == a[1..] + b;
      calc {
        Unread(a + b);
        head + Unread(a[1..] + b);
        { UnreadSplit(a[1..], b); }
        head + (Unread(a[1..]) + Unread(b));
        (head + Unread(a[1..])) + Unread(b);
        Unread(a) + Unread(b);
      }
    }
  }

  /** The opportunity filter distributes over concatenation. */
  lemma {:induction false} OpportunitiesSplit(a: seq<AlertRow>, b: seq<AlertRow>)
    ensures UnreadOpportunities(a + b) == UnreadOpportunities(a) + UnreadOpportunities(b)
  {
    if |a| == 0 {
      assert a + b == b;
    } else {
      var head := if !a[0].isRead && IsOpportunity(a[0].alertType) then [a[0]] else [];
      assert (a + b)[1..] == a[1..] + b;
      calc {
        UnreadOpportunities(a + b);
        head + UnreadOpportunities(a[1..] + b);
        { OpportunitiesSplit(a[1..], b); }
        head + (UnreadOpportunities(a[1..]) + UnreadOpportunities(b));
        (head + UnreadOpportunities(a[1..])) + UnreadOpportunities(b);
        UnreadOpportunities(a) + UnreadOpportunities(b);
      }
    }
  }

  /** The badge styles of `severityConfig`. */
  datatype SeverityStyle = CriticalStyle | WarningStyle | InfoStyle

  /** `severityConfig[severity] ?? severityConfig.info`: an unknown severity is shown as info. */
  function SeverityConfig(severity: string): (s: SeverityStyle)
    ensures severity == "critical" <==> s == CriticalStyle
    ensures severity == "warning" <==> s == WarningStyle
    ensures severity != "critical" && severity != "warning" ==> s == InfoStyle
  {
    if severity == "critical" then CriticalStyle
    else if severity == "warning" then WarningStyle
    else InfoStyle
  }

  /** `typeLabels[alert_type] ?? alert_type`. */
  function TypeLabel(alertType: string): (l: string)
    ensures alertType == "low_oxygen" ==> l == "Oxigeno bajo"
    ensures alertType == "high_ammonia" ==> l == "Amonio alto"
    ensures alertType == "high_mortality" ==> l == "Mortalidad alta"
    ensures alertType == "high_fca" ==> l == "FCA elevado"
  {
    if alertType == "low_oxygen" then "Oxigeno bajo"
    else if alertType == "high_ammonia" then "Amonio alto"
    else if alertType == "high_mortality" then "Mortalidad alta"
    else if alertType == "high_fca" then "FCA elevado"
    else alertType
  }

  const KnownTypes: set<string> := {"low_oxygen", "high_ammonia", "high_mortality", "high_fca"}

  /** The raw type is shown exactly for the types without a label. */
  lemma TypeLabelFallback(alertType: string)
    ensures TypeLabel(alertType) == alertType <==> alertType !in KnownTypes
  {
  }

  /** The tint of the card's icon. */
  datatype Tone = Primary | Destructive | Amber

  /** What a card shows besides the message and date. */
  datatype AlertCard = AlertCard(
    style: SeverityStyle,
    typeLabel: string,
    pondBadge: Option<string>,
    opportunityBadge: bool,
    treatmentLink: bool,
    iconTone: Tone,
    dimmed: bool)

  /** `alert.pond_id && pondNames[alert.pond_id]`: a known pond with a non-empty name. */
  function PondBadge(pondNames: map<string, string>, pondId: Option<string>): (b: Option<string>)
    ensures b.Some? <==> pondId.Some? && pondId.value != "" && pondId.value in pondNames
                         && pondNames[pondId.value] != ""
    ensures b.Some? ==> b.value == pondNames[pondId.value]
  {
    if pondId.Some? && pondId.value != "" && pondId.value in pondNames && pondNames[pondId.value] != "" then
      Some(pondNames[pondId.value])
    else None
  }

  function Present(pondNames: map<string, string>, a: AlertRow): (c: AlertCard)
    ensures c.opportunityBadge <==> IsOpportunity(a.alertType) && !a.isRead
    ensures c.treatmentLink <==> c.opportunityBadge
    ensures c.style == SeverityConfig(a.severity)
    ensures c.iconTone == Primary <==> IsOpportunity(a.alertType)
    ensures c.iconTone == Destructive <==> !IsOpportunity(a.alertType) && a.severity == "critical"
    ensures c.dimmed <==> a.isRead
    ensures c.typeLabel == TypeLabel(a.alertType)
    ensures c.pondBadge == PondBadge(pondNames, a.pondId)
  {
    var opportunity := IsOpportunity(a.alertType);
    AlertCard(
      SeverityConfig(a.severity),
      TypeLabel(a.alertType),
      PondBadge(pondNames, a.pondId),
      opportunity && !a.isRead,
      opportunity && !a.isRead,
      if opportunity then Primary else if a.severity == "critical" then Destructive else Amber,
      a.isRead)
  }

  /**
   * An alert raised at confirmation is an opportunity exactly when it is about
   * oxygen or ammonia, always has a label of its own and keeps its severity.
   */
  lemma GeneratedAlertsDisplay(a: Alerting.Alert)
    ensures IsOpportunity(Alerting.TypeName(a.kind)) <==>
              a.kind == Alerting.LowOxygen || a.kind == Alerting.HighAmmonia
    ensures TypeLabel(Alerting.TypeName(a.kind)) != Alerting.TypeName(a.kind)
    ensures a.severity == Alerting.Critical ==> SeverityConfig(Alerting.SeverityName(a.severity)) == CriticalStyle
    ensures a.severity == Alerting.Warning ==> SeverityConfig(Alerting.SeverityName(a.severity)) == WarningStyle
  {
    TypeLabelFallback(Alerting.TypeName(a.kind));
  }
}

=== FILE: alerting.dfy ===
/**
 * Threshold alerts raised when a production record is confirmed. Each rule is
 * independent; a rule fires at most once per record, and the rules are
 * evaluated in the fixed order oxygen, ammonia, mortality, FCA.
 */
module Alerting {
  import opened Wrappers
  import opened JsNumbers

  datatype AlertKind = LowOxygen | HighAmmonia | HighMortality | HighFca
  datatype Severity = Info | Warning | Critical

  /** The `alert_type` string stored for each kind. */
  function TypeName(k: AlertKind): string {
    match k
    case LowOxygen => "low_oxygen"
    case HighAmmonia => "high_ammonia"
    case HighMortality => "high_mortality"
    case HighFca => "high_fca"
  }

  /** The `severity` string stored for each severity. */
  function SeverityName(s: Severity): string {
    match s
    case Info => "info"
    case Warning => "warning"
    case Critical => "critical"
  }

  /** The type and severity of an alert; its message text is not modelled. */
  datatype Alert = Alert(kind: AlertKind, severity: Severity)

  /** The readings the rules look at, as held in memory by the action. */
  datatype Readings = Readings(
    oxygenMgL: Option<real>,
    ammoniaMgL: Option<real>,
    mortalityCount: Option<int>,
    fca: Option<Ratio>)

  const OxygenMin: real := 4.0
  const OxygenCritical: real := 2.0
  const AmmoniaMax: real := 0.5
  const AmmoniaCritical: real := 1.5
  const MortalityMax: int := 10
  const MortalityCritical: int := 50
  const FcaMax: real := 2.5

  /** The position of a rule in the evaluation order. */
  function Rank(k: AlertKind): nat {
    match k
    case LowOxygen => 0
    case HighAmmonia => 1
    case HighMortality => 2
    case HighFca => 3
  }

  predicate Raised(alerts: seq<Alert>, kind: AlertKind) {
    exists a :: a in alerts && a.kind == kind
  }

  /** Each rule fires at most once and in the evaluation order. */
  predicate InRuleOrder(alerts: seq<Alert>) {
    forall i, j :: 0 <= i < j < |alerts| ==> Rank(alerts[i].kind) < Rank(alerts[j].kind)
  }

  function AsList(a: Option<Alert>): (l: seq<Alert>)
    ensures |l| <= 1
    ensures forall x :: x in l <==> a == Some(x)
  {
    match a
    case Some(x) => [x]
    case None => []
  }

  function OxygenRule(oxygen: Option<real>): (a: Option<Alert>)
    ensures a.Some? <==> oxygen.Some? && oxygen.value < OxygenMin
    ensures a.Some? ==> a.value.kind == LowOxygen
    ensures a.Some? ==> (a.value.severity == Critical <==> oxygen.value < OxygenCritical)
    ensures a.Some? ==> a.value.severity != Info
  {
    match oxygen
    case Some(v) =>
      if v < OxygenMin then Some(Alert(LowOxygen, if v < OxygenCritical then Critical else Warning))
      else None
    case None => None
  }

  function AmmoniaRule(ammonia: Option<real>): (a: Option<Alert>)
    ensures a.Some? <==> ammonia.Some? && ammonia.value > AmmoniaMax
    ensures a.Some? ==> a.value.kind == HighAmmonia
    ensures a.Some? ==> (a.value.severity == Critical <==> ammonia.value > AmmoniaCritical)
    ensures a.Some? ==> a.value.severity != Info
  {
    match ammonia
    case Some(v) =>
      if v > AmmoniaMax then Some(Alert(HighAmmonia, if v > AmmoniaCritical then Critical else Warning))
      else None
    case None => None
  }

  function MortalityRule(count: Option<int>): (a: Option<Alert>)
    ensures a.Some? <==> count.Some? && count.value > MortalityMax
    ensures a.Some? ==> a.value.kind == HighMortality
    ensures a.Some? ==> (a.value.severity == Critical <==> count.value > MortalityCritical)
    ensures a.Some? ==> a.value.severity != Info
  {
    match count
    case Some(n) =>
      if n > MortalityMax then Some(Alert(HighMortality, if n > MortalityCritical then Critical else Warning))
      else None
    case None => None
  }

  function FcaRule(fca: Option<Ratio>): (a: Option<Alert>)
    ensures a.Some? <==> fca.Some? && Exceeds(fca.value, FcaMax)
    ensures a.Some? ==> a.value == Alert(HighFca, Warning)
  {
    match fca
    case Some(f) => if Exceeds(f, FcaMax) then Some(Alert(HighFca, Warning)) else None
    case None => None
  }

  /** The alerts for one record, in evaluation order. */
  function Evaluate(r: Readings): (alerts: seq<Alert>)
    ensures InRuleOrder(alerts)
    ensures |alerts| <= 4
  {
    var o := OxygenRule(r.oxygenMgL);
    var n := AmmoniaRule(r.ammoniaMgL);
    var m := MortalityRule(r.mortalityCount);
    var f := FcaRule(r.fca);
    var tail := AsList(f);
    PrependInOrder(m, tail, 2);
    var tail' := Prepend(m, tail);
    PrependInOrder(n, tail', 1);
    var tail'' := Prepend(n, tail');
    PrependInOrder(o, tail'', 0);
    Prepend(o, tail'')
  }

  /** Each rule fires exactly when its reading crosses its threshold strictly. */
  lemma EvaluateRules(r: Readings)
    ensures Raised(Evaluate(r), LowOxygen) <==> r.oxygenMgL.Some? && r.oxygenMgL.value < OxygenMin
    ensures Raised(Evaluate(r), HighAmmonia) <==> r.ammoniaMgL.Some? && r.ammoniaMgL.value > AmmoniaMax
    ensures Raised(Evaluate(r), HighMortality) <==>
              r.mortalityCount.Some? && r.mortalityCount.value > MortalityMax
    ensures Raised(Evaluate(r), HighFca) <==> r.fca.Some? && Exceeds(r.fca.value, FcaMax)
    ensures forall a :: a in Evaluate(r) && a.kind == LowOxygen ==>
              (a.severity == Critical <==> r.oxygenMgL.value < OxygenCritical)
    ensures forall a :: a in Evaluate(r) && a.kind == HighAmmonia ==>
              (a.severity == Critical <==> r.ammoniaMgL.value > AmmoniaCritical)
    ensures forall a :: a in Evaluate(r) && a.kind == HighMortality ==>
              (a.severity == Critical <==> r.mortalityCount.value > MortalityCritical)
    ensures forall a :: a in Evaluate(r) ==> a.severity != Info
    ensures forall a :: a in Evaluate(r) && a.kind == HighFca ==> a.severity == Warning
  {
    EvaluateRaised(r);
    EvaluateSeverities(r);
  }

  /** Which alert types are raised. */
  lemma EvaluateRaised(r: Readings)
    ensures Raised(Evaluate(r), LowOxygen) <==> r.oxygenMgL.Some? && r.oxygenMgL.value < OxygenMin
    ensures Raised(Evaluate(r), HighAmmonia) <==> r.ammoniaMgL.Some? && r.ammoniaMgL.value > AmmoniaMax
    ensures Raised(Evaluate(r), HighMortality) <==>
              r.mortalityCount.Some? && r.mortalityCount.value > MortalityMax
    ensures Raised(Evaluate(r), HighFca) <==> r.fca.Some? && Exceeds(r.fca.value, FcaMax)
  {
    EvaluateMembers(r);
    RaisedByRules(Evaluate(r), OxygenRule(r.oxygenMgL), AmmoniaRule(r.ammoniaMgL),
                  MortalityRule(r.mortalityCount), FcaRule(r.fca));
  }

  /** The severity of each raised alert. */
  lemma EvaluateSeverities(r: Readings)
    ensures forall a :: a in Evaluate(r) && a.kind == LowOxygen ==>
              (a.severity == Critical <==> r.oxygenMgL.value < OxygenCritical)
    ensures forall a :: a in Evaluate(r) && a.kind == HighAmmonia ==>
              (a.severity == Critical <==> r.ammoniaMgL.value > AmmoniaCritical)
    ensures forall a :: a in Evaluate(r) && a.kind == HighMortality ==>
              (a.severity == Critical <==> r.mortalityCount.value > MortalityCritical)
    ensures forall a :: a in Evaluate(r) ==> a.severity != Info
    ensures forall a :: a in Evaluate(r) && a.kind == HighFca ==> a.severity == Warning
  {
    EvaluateMembers(r);
    RaisedByRules(Evaluate(r), OxygenRule(r.oxygenMgL), AmmoniaRule(r.ammoniaMgL),
                  MortalityRule(r.mortalityCount), FcaRule(r.fca));
  }

  /**
   * In a list made of the outputs of four rules, one per alert type, a type is
   * raised exactly when its rule fired, and every alert of that type is the
   * rule's.
   */
  lemma RaisedByRules(alerts: seq<Alert>, o: Option<Alert>, n: Option<Alert>, m: Option<Alert>, f: Option<Alert>)
    requires forall a :: a in alerts <==> o == Some(a) || n == Some(a) || m == Some(a) || f == Some(a)
    requires o.Some? ==> o.value.kind == LowOxygen
    requires n.Some? ==> n.value.kind == HighAmmonia
    requires m.Some? ==> m.value.kind == HighMortality
    requires f.Some? ==> f.value.kind == HighFca
    ensures Raised(alerts, LowOxygen) <==> o.Some?
    ensures Raised(alerts, HighAmmonia) <==> n.Some?
    ensures Raised(alerts, HighMortality) <==> m.Some?
    ensures Raised(alerts, HighFca) <==> f.Some?
    ensures forall a :: a in alerts && a.kind == LowOxygen ==> o == Some(a)
    ensures forall a :: a in alerts && a.kind == HighAmmonia ==> n == Some(a)
    ensures forall a :: a in alerts && a.kind == HighMortality ==> m == Some(a)
    ensures forall a :: a in alerts && a.kind == HighFca ==> f == Some(a)
  {
    if o.Some? { assert o.value in alerts; }
    if n.Some? { assert n.value in alerts; }
    if m.Some? { assert m.value in alerts; }
    if f.Some? { assert f.value in alerts; }
  }

  /** An alert is in the result exactly when one of the four rules produced it. */
  lemma EvaluateMembers(r: Readings)
    ensures forall a :: a in Evaluate(r) <==>
              || OxygenRule(r.oxygenMgL) == Some(a)
              || AmmoniaRule(r.ammoniaMgL) == Some(a)
              || MortalityRule(r.mortalityCount) == Some(a)
              || FcaRule(r.fca) == Some(a)
  {
    var o := OxygenRule(r.oxygenMgL);
    var n := AmmoniaRule(r.ammoniaMgL);
    var m := MortalityRule(r.mortalityCount);
    var f := FcaRule(r.fca);
    assert Evaluate(r) == Prepend(o, Prepend(n, Prepend(m, AsList(f))));
  }

  /** `a` followed by `rest`, or `rest` alone when no alert was raised. */
  function Prepend(a: Option<Alert>, rest: seq<Alert>): (l: seq<Alert>)
    ensures forall x :: x in l <==> a == Some(x) || x in rest
    ensures |l| <= |rest| + 1
  {
    match a
    case Some(x) => [x] + rest
    case None => rest
  }

  /** Putting a lower-ranked rule's alert in front keeps the rule order. */
  lemma PrependInOrder(a: Option<Alert>, rest: seq<Alert>, rank: nat)
    requires InRuleOrder(rest)
    requires a.Some? ==> Rank(a.value.kind) == rank
    requires forall x :: x in rest ==> Rank(x.kind) > rank
    ensures InRuleOrder(Prepend(a, rest))
    ensures forall x :: x in Prepend(a, rest) ==> Rank(x.kind) >= rank
  {
    if a.Some? {
      var l := Prepend(a, rest);
      forall i, j | 0 <= i < j < |l|
        ensures Rank(l[i].kind) < Rank(l[j].kind)
      {
        if i > 0 {
          assert l[i] == rest[i - 1] && l[j] == rest[j - 1];
        } else {
          assert l[j] in rest;
        }
      }
    }
  }

  /** Exactly at a threshold nothing fires: every comparison is strict. */
  lemma BoundaryValuesRaiseNothing()
    ensures Evaluate(Readings(Some(4.0), Some(0.5), Some(10), Some(Finite(2.5)))) == []
  {
  }

  /** Absent readings never raise an alert. */
  lemma AbsentReadingsRaiseNothing()
    ensures Evaluate(Readings(None, None, None, None)) == []
  {
  }

  /** Oxygen 1.5 is critical, 3.5 a warning, 5 nothing; a reading of 0 is not null. */
  lemma OxygenExamples()
    ensures Evaluate(Readings(Some(1.5), None, None, None)) == [Alert(LowOxygen, Critical)]
    ensures Evaluate(Readings(Some(3.5), None, None, None)) == [Alert(LowOxygen, Warning)]
    ensures Evaluate(Readings(Some(5.0), None, None, None)) == []
    ensures Evaluate(Readings(Some(0.0), None, None, None)) == [Alert(LowOxygen, Critical)]
  {
  }
}

=== FILE: analytics_charts.dfy ===
/**
 * The data behind the analytics charts: each chart keeps the records that
 * have the values it plots, sorted by `record_date`; the mortality chart adds
 * a running total.
 */
module Charts {
  import opened Wrappers
  import opened Dates

  /** A production record as the analytics page passes it to the charts. */
  datatype ChartRecord = ChartRecord(
    id: string,
    recordDate: string,
    feedKg: Option<real>,
    avgWeightG: Option<real>,
    mortalityCount: Option<int>,
    temperatureC: Option<real>,
    oxygenMgL: Option<real>,
    ammoniaMgL: Option<real>,
    nitriteMgL: Option<real>,
    nitrateMgL: Option<real>,
    ph: Option<real>,
    calculatedFca: Option<real>,
    calculatedBiomassKg: Option<real>,
    pondName: string)

  predicate HasWeight(r: ChartRecord) { r.avgWeightG.Some? }
  predicate HasFeed(r: ChartRecord) { r.feedKg.Some? }
  predicate HasWaterQuality(r: ChartRecord) { r.temperatureC.Some? || r.oxygenMgL.Some? }
  predicate HasNitrogen(r: ChartRecord) {
    r.ammoniaMgL.Some? || r.nitriteMgL.Some? || r.nitrateMgL.Some?
  }
  predicate HasFca(r: ChartRecord) { r.calculatedFca.Some? }

  /** `records.filter(keep)`: the kept records, each as often as in the input. */
  function Filter(records: seq<ChartRecord>, keep: ChartRecord -> bool): (r: seq<ChartRecord>)
    ensures forall x :: multiset(r)[x] == if keep(x) then multiset(records)[x] else 0
    ensures forall x :: x in r ==> keep(x)
  {
    if |records| == 0 then []
    else
      var rest := Filter(records[1..], keep);
      assert records == [records[0]] + records[1..];
      if keep(records[0]) then [records[0]] + rest else rest
  }

  predicate SortedByDate(s: seq<ChartRecord>) {
    forall i, j :: 0 <= i < j < |s| ==> LexLe(s[i].recordDate, s[j].recordDate)
  }

  /** Places `x` in front of the first record it sorts at or before. */
  function Insert(x: ChartRecord, s: seq<ChartRecord>): (r: seq<ChartRecord>)
    ensures multiset(r) == multiset(s) + multiset{x}
    ensures |r| == |s| + 1
  {
    if |s| == 0 then [x]
    else if LexLe(x.recordDate, s[0].recordDate) then [x] + s
    else
      assert s == [s[0]] + s[1..];
      [s[0]] + Insert(x, s[1..])
  }

  /** Dropping the first record of a sorted list leaves it sorted. */
  lemma SortedTail(s: seq<ChartRecord>)
    requires SortedByDate(s) && |s| > 0
    ensures SortedByDate(s[1..])
    ensures forall k :: 0 <= k < |s| - 1 ==> LexLe(s[0].recordDate, s[1..][k].recordDate)
  {
    var tail := s[1..];
    forall i, j | 0 <= i < j < |tail|
      ensures LexLe(tail[i].recordDate, tail[j].recordDate)
    {
      assert tail[i] == s[i + 1] && tail[j] == s[j + 1];
    }
  }

  /** A record no later than every record of a sorted list may go in front of it. */
  lemma ConsSorted(h: ChartRecord, rest: seq<ChartRecord>)
    requires SortedByDate(rest)
    requires forall k :: 0 <= k < |rest| ==> LexLe(h.recordDate, rest[k].recordDate)
    ensures SortedByDate([h] + rest)
  {
    var r := [h] + rest;
    forall i, j | 0 <= i < j < |r|
      ensures LexLe(r[i].recordDate, r[j].recordDate)
    {
      assert r[j] == rest[j - 1];
      if i > 0 {
        assert r[i] == rest[i - 1];
      }
    }
  }

  /** A date no later than the inserted record and every record stays a lower bound. */
  lemma InsertBounded(x: ChartRecord, s: seq<ChartRecord>, lo: string)
    requires LexLe(lo, x.recordDate)
    requires forall k :: 0 <= k < |s| ==> LexLe(lo, s[k].recordDate)
    ensures forall k :: 0 <= k < |Insert(x, s)| ==> LexLe(lo, Insert(x, s)[k].recordDate)
  {
    var r := Insert(x, s);
    forall k | 0 <= k < |r|
      ensures LexLe(lo, r[k].recordDate)
    {
      assert r[k] in multiset(r);
      if r[k] != x {
        assert r[k] in multiset(s);
        var m :| 0 <= m < |s| && s[m] == r[k];
      }
    }
  }

  /** Inserting into a sorted list keeps it sorted. */
  lemma {:induction false} InsertSorted(x: ChartRecord, s: seq<ChartRecord>)
    requires SortedByDate(s)
    ensures SortedByDate(Insert(x, s))
  {
    if |s| == 0 {
    } else if LexLe(x.recordDate, s[0].recordDate) {
      forall j | 0 <= j < |s|
        ensures LexLe(x.recordDate, s[j].recordDate)
      {
        if j > 0 {
          LexLeTransitive(x.recordDate, s[0].recordDate, s[j].recordDate);
        }
      }
      ConsSorted(x, s);
    } else {
      LexLeTotal(x.recordDate, s[0].recordDate);
      SortedTail(s);
      InsertSorted(x, s[1..]);
      InsertBounded(x, s[1..], s[0].recordDate);
      ConsSorted(s[0], Insert(x, s[1..]));
    }
  }

  /** `.sort((a, b) => a.record_date.localeCompare(b.record_date))`, a stable sort. */
  function SortByDate(s: seq<ChartRecord>): (r: seq<ChartRecord>)
    ensures SortedByDate(r)
    ensures multiset(r) == multiset(s)
    ensures |r| == |s|
  {
    if |s| == 0 then []
    else
      assert s == [s[0]] + s[1..];
      InsertSorted(s[0], SortByDate(s[1..]));
      Insert(s[0], SortByDate(s[1..]))
  }

  /** The records a chart plots: those `keep` admits, in date order. */
  function Series(records: seq<ChartRecord>, keep: ChartRecord -> bool): (r: seq<ChartRecord>)
    ensures SortedByDate(r)
    ensures forall x :: x in r ==> keep(x)
    ensures |r| <= |records|
  {
    var f := Filter(records, keep);
    var r := SortByDate(f);
    assert forall x :: x in r ==> x in multiset(f);
    FilterLength(records, keep);
    r
  }

  lemma {:induction false} FilterLength(records: seq<ChartRecord>, keep: ChartRecord -> bool)
    ensures |Filter(records, keep)| <= |records|
  {
    if |records| > 0 {
      FilterLength(records[1..], keep);
    }
  }

  /** A series holds every admitted record exactly as often as the input does, and nothing else. */
  lemma SeriesIsFilteredPermutation(records: seq<ChartRecord>, keep: ChartRecord -> bool, x: ChartRecord)
    ensures multiset(Series(records, keep))[x] == if keep(x) then multiset(records)[x] else 0
  {
  }

  datatype Point = Point(date: string, value: real)

  /** One point per record, with the value the chart reads from it. */
  function Plot(s: seq<ChartRecord>, value: ChartRecord -> Option<real>): (points: seq<Point>)
    requires forall i :: 0 <= i < |s| ==> value(s[i]).Some?
    ensures |points| == |s|
    ensures forall i :: 0 <= i < |s| ==>
              points[i].date == s[i].recordDate && value(s[i]) == Some(points[i].value)
  {
    if |s| == 0 then []
    else [Point(s[0].recordDate, value(s[0]).value)] + Plot(s[1..], value)
  }

  /** The weight chart: one point per record with a weight, by date. */
  function WeightChart(records: seq<ChartRecord>): (points: seq<Point>)
    ensures var s := Series(records, HasWeight);
            && |points| == |s|
            && forall i :: 0 <= i < |s| ==>
                 points[i].date == s[i].recordDate && s[i].avgWeightG == Some(points[i].value)
  {
    var s := Series(records, HasWeight);
    assert forall i :: 0 <= i < |s| ==> HasWeight(s[i]);
    Plot(s, (r: ChartRecord) => r.avgWeightG)
  }

  /** The feed chart: one bar per record with a feed amount, by date. */
  function FeedChart(records: seq<ChartRecord>): (points: seq<Point>)
    ensures var s := Series(records, HasFeed);
            && |points| == |s|
            && forall i :: 0 <= i < |s| ==>
                 points[i].date == s[i].recordDate && s[i].feedKg == Some(points[i].value)
  {
    var s := Series(records, HasFeed);
    assert forall i :: 0 <= i < |s| ==> HasFeed(s[i]);
    Plot(s, (r: ChartRecord) => r.feedKg)
  }

  /** The FCA chart: one point per record with a stored FCA, by date. */
  function FcaChart(records: seq<ChartRecord>): (points: seq<Point>)
    ensures var s := Series(records, HasFca);
            && |points| == |s|
            && forall i :: 0 <= i < |s| ==>
                 points[i].date == s[i].recordDate && s[i].calculatedFca == Some(points[i].value)
  {
    var s := Series(records, HasFca);
    assert forall i :: 0 <= i < |s| ==> HasFca(s[i]);
    Plot(s, (r: ChartRecord) => r.calculatedFca)
  }

  datatype WaterPoint = WaterPoint(date: string, temperatureC: Option<real>, oxygenMgL: Option<real>)

  /** The temperature and oxygen chart: records with either reading, by date. */
  function WaterQualityChart(records: seq<ChartRecord>): (points: seq<WaterPoint>)
    ensures var s := Series(records, HasWaterQuality);
            && |points| == |s|
            && forall i :: 0 <= i < |s| ==>
                 && points[i].date == s[i].recordDate
                 && points[i].temperatureC == s[i].temperatureC
                 && points[i].oxygenMgL == s[i].oxygenMgL
                 && (points[i].temperatureC.Some? || points[i].oxygenMgL.Some?)
  {
    var s := Series(records, HasWaterQuality);
    assert forall i :: 0 <= i < |s| ==> HasWaterQuality(s[i]);
    WaterPoints(s)
  }

  function WaterPoints(s: seq<ChartRecord>): (points: seq<WaterPoint>)
    ensures |points| == |s|
    ensures forall i :: 0 <= i < |s| ==>
              points[i] == WaterPoint(s[i].recordDate, s[i].temperatureC, s[i].oxygenMgL)
  {
    if |s| == 0 then []
    else [WaterPoint(s[0].recordDate, s[0].temperatureC, s[0].oxygenMgL)] + WaterPoints(s[1..])
  }

  datatype NitrogenPoint = NitrogenPoint(
    date: string, ammoniaMgL: Option<real>, nitriteMgL: Option<real>, nitrateMgL: Option<real>,
    ph: Option<real>)

  /** The nitrogen chart: records with any nitrogen reading, by date; pH rides along. */
  function NitrogenChart(records: seq<ChartRecord>): (points: seq<NitrogenPoint>)
    ensures var s := Series(records, HasNitrogen);
            && |points| == |s|
            && forall i :: 0 <= i < |s| ==>
                 && points[i].date == s[i].recordDate
                 && points[i].ammoniaMgL == s[i].ammoniaMgL
                 && points[i].nitriteMgL == s[i].nitriteMgL
                 && points[i].nitrateMgL == s[i].nitrateMgL
                 && points[i].ph == s[i].ph
                 && (points[i].ammoniaMgL.Some? || points[i].nitriteMgL.Some? || points[i].nitrateMgL.Some?)
  {
    var s := Series(records, HasNitrogen);
    assert forall i :: 0 <= i < |s| ==> HasNitrogen(s[i]);
    NitrogenPoints(s)
  }

  function NitrogenPoints(s: seq<ChartRecord>): (points: seq<NitrogenPoint>)
    ensures |points| == |s|
    ensures forall i :: 0 <= i < |s| ==>
              points[i] == NitrogenPoint(s[i].recordDate, s[i].ammoniaMgL, s[i].nitriteMgL,
                                         s[i].nitrateMgL, s[i].ph)
  {
    if |s| == 0 then []
    else [NitrogenPoint(s[0].recordDate, s[0].ammoniaMgL, s[0].nitriteMgL, s[0].nitrateMgL, s[0].ph)]
         + NitrogenPoints(s[1..])
  }

  /** `r.mortality_count ?? 0`. */
  function Daily(r: ChartRecord): (d: int)
    ensures r.mortalityCount.None? ==> d == 0
    ensures r.mortalityCount.Some? ==> d == r.mortalityCount.value
  {
    r.mortalityCount.GetOr(0)
  }

  /** Deaths recorded over a whole list. */
  function Total(s: seq<ChartRecord>): (t: int)
    ensures |s| == 0 ==> t == 0
  {
    if |s| == 0 then 0 else Total(s[..|s| - 1]) + Daily(s[|s| - 1])
  }

  lemma {:induction false} TotalPrepend(x: ChartRecord, s: seq<ChartRecord>)
    ensures Total([x] + s) == Daily(x) + Total(s)
    decreases |s|
  {
    if |s| > 0 {
      assert ([x] + s)[..|s|] == [x] + s[..|s| - 1];
      TotalPrepend(x, s[..|s| - 1]);
    }
  }

  lemma {:induction false} TotalInsert(x: ChartRecord, s: seq<ChartRecord>)
    requires SortedByDate(s)
    ensures Total(Insert(x, s)) == Daily(x) + Total(s)
    decreases |s|
  {
    if |s| == 0 {
      TotalPrepend(x, s);
    } else if LexLe(x.recordDate, s[0].recordDate) {
      TotalPrepend(x, s);
    } else {
      TotalInsert(x, s[1..]);
      TotalPrepend(s[0], Insert(x, s[1..]));
      TotalPrepend(s[0], s[1..]);
      assert s == [s[0]] + s[1..];
    }
  }

  /** Sorting does not change the total. */
  lemma {:induction false} TotalSort(s: seq<ChartRecord>)
    ensures Total(SortByDate(s)) == Total(s)
  {
    if |s| > 0 {
      TotalSort(s[1..]);
      TotalInsert(s[0], SortByDate(s[1..]));
      TotalPrepend(s[0], s[1..]);
      assert s == [s[0]] + s[1..];
    }
  }

  datatype MortalityPoint = MortalityPoint(date: string, daily: Option<int>, cumulative: int)

  /** Each record's date and count with the deaths up to and including it. */
  method RunningTotals(s: seq<ChartRecord>) returns (points: seq<MortalityPoint>)
    ensures |points| == |s|
    ensures forall i :: 0 <= i < |s| ==>
              && points[i].date == s[i].recordDate
              && points[i].daily == s[i].mortalityCount
              && points[i].cumulative == Total(s[..i + 1])
  {
    var cumulative := 0;
    points := [];
    var i := 0;
    while i < |s|
      invariant 0 <= i <= |s|
      invariant |points| == i
      invariant cumulative == Total(s[..i])
      invariant forall k :: 0 <= k < i ==>
                  && points[k].date == s[k].recordDate
                  && points[k].daily == s[k].mortalityCount
                  && points[k].cumulative == Total(s[..k + 1])
    {
      assert s[..i + 1][..i] == s[..i];
      cumulative := cumulative + Daily(s[i]);
      points := points + [MortalityPoint(s[i].recordDate, s[i].mortalityCount, cumulative)];
      i := i + 1;
    }
  }

  /** The mortality chart: every record by date, with the deaths so far. */
  method MortalityChart(records: seq<ChartRecord>) returns (points: seq<MortalityPoint>)
    ensures |points| == |records|
    ensures forall i :: 0 <= i < |points| ==>
              points[i].cumulative == Total(SortByDate(records)[..i + 1])
    ensures forall i :: 0 <= i < |points| ==>
              && points[i].date == SortByDate(records)[i].recordDate
              && points[i].daily == SortByDate(records)[i].mortalityCount
    ensures |points| > 0 ==> points[|points| - 1].cumulative == Total(records)
    ensures (forall r :: r in records ==> Daily(r) >= 0) ==>
              forall i, j :: 0 <= i <= j < |points| ==> points[i].cumulative <= points[j].cumulative
  {
    var sorted := SortByDate(records);
    points := RunningTotals(sorted);
    TotalSort(records);
    assert sorted[..|sorted|] == sorted;
    if forall r :: r in records ==> Daily(r) >= 0 {
      SortKeepsCounts(records);
      RunningNonDecreasing(sorted, points);
    }
  }

  /** Sorting brings in no record that was not there, so no new negative count. */
  lemma SortKeepsCounts(records: seq<ChartRecord>)
    requires forall r :: r in records ==> Daily(r) >= 0
    ensures forall k :: 0 <= k < |SortByDate(records)| ==> Daily(SortByDate(records)[k]) >= 0
  {
    var sorted := SortByDate(records);
    forall k | 0 <= k < |sorted|
      ensures Daily(sorted[k]) >= 0
    {
      assert sorted[k] in multiset(sorted);
      assert sorted[k] in multiset(records);
    }
  }

  /** Running totals over non-negative counts never go down. */
  lemma RunningNonDecreasing(s: seq<ChartRecord>, points: seq<MortalityPoint>)
    requires |points| == |s|
    requires forall i :: 0 <= i < |s| ==> points[i].cumulative == Total(s[..i + 1])
    requires forall k :: 0 <= k < |s| ==> Daily(s[k]) >= 0
    ensures forall i, j :: 0 <= i <= j < |points| ==> points[i].cumulative <= points[j].cumulative
  {
    forall i, j | 0 <= i <= j < |points|
      ensures points[i].cumulative <= points[j].cumulative
    {
      TotalMonotone(s, i + 1, j + 1);
    }
  }

  /** With no negative daily counts the running total never goes down. */
  lemma {:induction false} TotalMonotone(s: seq<ChartRecord>, i: nat, j: nat)
    requires i <= j <= |s|
    requires forall k :: 0 <= k < |s| ==> Daily(s[k]) >= 0
    ensures Total(s[..i]) <= Total(s[..j])
    decreases j - i
  {
    if i < j {
      TotalMonotone(s, i, j - 1);
      assert s[..j][..j - 1] == s[..j - 1];
    }
  }
}

=== FILE: bioremediation_form.dfy ===
/**
 * The dashboard's bioremediation calculator: pond dimensions in metres give
 * a volume, the volume selects a dose tier, and the tier's rate gives the
 * litres of product to apply.
 */
module DoseForm {
  import opened Wrappers
  import opened DoseTiers

  /** Litres of product per m3, by pond size. */
  const DoseTable: seq<Tier> := [
    Tier(UpTo(50.0), 0.5, "Muy pequeno"),
    Tier(UpTo(200.0), 0.4, "Pequeno"),
    Tier(UpTo(500.0), 0.35, "Mediano"),
    Tier(UpTo(1000.0), 0.3, "Grande"),
    Tier(Unbounded, 0.25, "Muy grande")
  ]

  lemma DoseTableWellFormed()
    ensures WellFormed(DoseTable)
  {
  }

  function GetDose(volume: real): (t: Tier)
    ensures t in DoseTable
    ensures Fits(volume, t)
  {
    AlwaysFits(DoseTable, volume);
    Lookup(DoseTable, volume)
  }

  /** Reference classification: the size band a volume falls in. */
  function SizeBand(volume: real): (i: nat)
    ensures i < |DoseTable|
  {
    if volume <= 50.0 then 0
    else if volume <= 200.0 then 1
    else if volume <= 500.0 then 2
    else if volume <= 1000.0 then 3
    else 4
  }

  /** `getDose` selects the tier of the volume's size band, bounds inclusive. */
  lemma GetDoseIsSizeBand(volume: real)
    ensures GetDose(volume) == DoseTable[SizeBand(volume)]
  {
    DoseTableWellFormed();
    LookupInRange(DoseTable, volume, SizeBand(volume));
  }

  /** 50 m3 is still "Muy pequeno"; anything above it up to 200 is "Pequeno"; 1000 is "Grande". */
  lemma GetDoseBoundaries(v: real)
    ensures GetDose(50.0) == Tier(UpTo(50.0), 0.5, "Muy pequeno")
    ensures 50.0 < v <= 200.0 ==> GetDose(v) == Tier(UpTo(200.0), 0.4, "Pequeno")
    ensures GetDose(1000.0).sizeLabel == "Grande"
    ensures v > 1000.0 ==> GetDose(v).dose == 0.25
  {
    GetDoseIsSizeBand(50.0);
    GetDoseIsSizeBand(v);
    GetDoseIsSizeBand(1000.0);
  }

  /** The rate never increases with the volume. */
  lemma GetDoseRateNonIncreasing(v1: real, v2: real)
    requires v1 <= v2
    ensures GetDose(v1).dose >= GetDose(v2).dose
  {
    DoseTableWellFormed();
    RateNonIncreasing(DoseTable, v1, v2);
  }

  /** `handleCalculate`: nothing for a non-positive dimension, else volume, tier and total dose. */
  function Calculate(length: real, width: real, depth: real): (r: Option<DoseResult>)
    ensures r.None? <==> length <= 0.0 || width <= 0.0 || depth <= 0.0
    ensures r.Some? ==> r.value.volume == length * width * depth
    ensures r.Some? ==> r.value.totalDose == r.value.volume * r.value.dose
    ensures r.Some? ==> exists t :: t in DoseTable && Fits(r.value.volume, t)
                                    && t.dose == r.value.dose && t.sizeLabel == r.value.sizeLabel
    ensures r.Some? ==> r.value.dose == GetDose(r.value.volume).dose
                        && r.value.sizeLabel == GetDose(r.value.volume).sizeLabel
    ensures r.Some? ==> r.value.volume > 0.0 && r.value.totalDose > 0.0
  {
    if length <= 0.0 || width <= 0.0 || depth <= 0.0 then None
    else
      var volume := length * width * depth;
      var tier := GetDose(volume);
      Some(DoseResult(volume, tier.dose, volume * tier.dose, tier.sizeLabel))
  }

  /** 20 m x 10 m x 1.5 m is 300 m3, "Mediano", 105 litres. */
  lemma CalculateExample()
    ensures Calculate(20.0, 10.0, 1.5) == Some(DoseResult(300.0, 0.35, 105.0, "Mediano"))
  {
    GetDoseIsSizeBand(300.0);
  }

  /** The calculator's state: the shown result and whether it has been saved. */
  datatype FormState = FormState(result: Option<DoseResult>, saved: bool)

  /** A click on "Calcular": an invalid input leaves the state as it was. */
  function HandleCalculate(s: FormState, length: real, width: real, depth: real): (s': FormState)
    ensures Calculate(length, width, depth).None? ==> s' == s
    ensures Calculate(length, width, depth).Some? ==>
              s'.result == Calculate(length, width, depth) && !s'.saved
  {
    match Calculate(length, width, depth)
    case None => s
    case Some(r) => FormState(Some(r), false)
  }
}

=== FILE: costs.dfy ===
/**
 * The bioremediation sales page: per-treatment revenue and ammonia-reduction
 * effectiveness, and the totals and averages shown above the table.
 */
module Costs {
  import opened Wrappers

  /** Reference price of the product, per litre. */
  const PricePerLiter: real := 12.5

  /** A `bioremediation_treatments` row as read; a non-numeric dose reads as absent. */
  datatype RawTreatment = RawTreatment(
    pondId: string,
    treatmentDate: string,
    productName: string,
    doseLiters: Option<real>,
    ammoniaBefore: Option<real>,
    ammoniaAfter: Option<real>,
    notes: Option<string>)

  /** A row of the treatment table. */
  datatype TreatmentRow = TreatmentRow(
    pondName: string,
    treatmentDate: string,
    productName: string,
    doseLiters: real,
    ammoniaBefore: Option<real>,
    ammoniaAfter: Option<real>,
    notes: Option<string>,
    revenue: real,
    effectiveness: Option<real>)

  /** `Number(dose_liters) || 0`: a missing, zero or non-numeric dose counts as 0 litres. */
  function NormalizeDose(raw: Option<real>): (d: real)
    ensures raw.None? ==> d == 0.0
    ensures raw.Some? ==> d == raw.value
  {
    if raw.Some? && raw.value != 0.0 then raw.value else 0.0
  }

  /**
   * Percentage of ammonia removed. Undefined without both readings or with a
   * non-positive reading before; negative when ammonia rose; never clamped.
   */
  function Effectiveness(before: Option<real>, after: Option<real>): (e: Option<real>)
    ensures e.Some? <==> before.Some? && after.Some? && before.value > 0.0
    ensures e.Some? ==> e.value * before.value == (before.value - after.value) * 100.0
    ensures e.Some? ==> (e.value < 0.0 <==> after.value > before.value)
    ensures e.Some? && after.value >= 0.0 ==> e.value <= 100.0
    ensures e.Some? ==> (e.value == 100.0 <==> after.value == 0.0)
  {
    if before.Some? && after.Some? && before.value > 0.0 then
      Some(((before.value - after.value) / before.value) * 100.0)
    else None
  }

  /** 2.0 -> 0.5 is 75%; 0.5 -> 1.0 is -100%; a reading of 0 before gives nothing. */
  lemma EffectivenessExamples(after: Option<real>)
    ensures Effectiveness(Some(2.0), Some(0.5)) == Some(75.0)
    ensures Effectiveness(Some(0.5), Some(1.0)) == Some(-100.0)
    ensures Effectiveness(Some(0.0), after).None?
  {
  }

  /** `pondMap[pond_id] ?? 'Sin estanque'`. */
  function PondName(ponds: map<string, string>, pondId: string): (name: string)
    ensures pondId in ponds ==> name == ponds[pondId]
    ensures pondId !in ponds ==> name == "Sin estanque"
  {
    if pondId in ponds then ponds[pondId] else "Sin estanque"
  }

  function ToRow(ponds: map<string, string>, t: RawTreatment): (row: TreatmentRow)
    ensures row.revenue == row.doseLiters * PricePerLiter
    ensures row.effectiveness == Effectiveness(t.ammoniaBefore, t.ammoniaAfter)
    ensures row.doseLiters == NormalizeDose(t.doseLiters)
    ensures row.pondName == PondName(ponds, t.pondId)
    ensures row.treatmentDate == t.treatmentDate && row.productName == t.productName
    ensures row.ammoniaBefore == t.ammoniaBefore && row.ammoniaAfter == t.ammoniaAfter
    ensures row.notes == t.notes
  {
    var dose := NormalizeDose(t.doseLiters);
    TreatmentRow(PondName(ponds, t.pondId), t.treatmentDate, t.productName, dose,
                 t.ammoniaBefore, t.ammoniaAfter, t.notes, dose * PricePerLiter,
                 Effectiveness(t.ammoniaBefore, t.ammoniaAfter))
  }

  /** The table rows, one per treatment and in the same order. */
  function Rows(ponds: map<string, string>, raw: seq<RawTreatment>): (rows: seq<TreatmentRow>)
    ensures |rows| == |raw|
    ensures forall i :: 0 <= i < |raw| ==> rows[i] == ToRow(ponds, raw[i])
  {
    if |raw| == 0 then [] else [ToRow(ponds, raw[0])] + Rows(ponds, raw[1..])
  }

  /** Litres applied over all treatments. */
  function TotalLiters(rows: seq<TreatmentRow>): (t: real)
    ensures |rows| == 0 ==> t == 0.0
    ensures (forall i :: 0 <= i < |rows| ==> rows[i].doseLiters >= 0.0) ==> t >= 0.0
  {
    if |rows| == 0 then 0.0 else rows[0].doseLiters + TotalLiters(rows[1..])
  }

  /** Revenue over all treatments. */
  function TotalRevenue(rows: seq<TreatmentRow>): (t: real)
    ensures |rows| == 0 ==> t == 0.0
    ensures (forall i :: 0 <= i < |rows| ==> rows[i].revenue >= 0.0) ==> t >= 0.0
  {
    if |rows| == 0 then 0.0 else rows[0].revenue + TotalRevenue(rows[1..])
  }

  /** `reduce` folds from the left: one more treatment at the end adds exactly its litres. */
  lemma {:induction false} TotalLitersAppend(rows: seq<TreatmentRow>, r: TreatmentRow)
    ensures TotalLiters(rows + [r]) == TotalLiters(rows) + r.doseLiters
  {
    if |rows| > 0 {
      assert (rows + [r])[1..] == rows[1..] + [r];
      TotalLitersAppend(rows[1..], r);
    } else {
      assert (rows + [r])[1..] == [];
    }
  }

  /** One more treatment at the end adds exactly its revenue. */
  lemma {:induction false} TotalRevenueAppend(rows: seq<TreatmentRow>, r: TreatmentRow)
    ensures TotalRevenue(rows + [r]) == TotalRevenue(rows) + r.revenue
  {
    if |rows| > 0 {
      assert (rows + [r])[1..] == rows[1..] + [r];
      TotalRevenueAppend(rows[1..], r);
    } else {
      assert (rows + [r])[1..] == [];
    }
  }

  /** Total revenue is the litres sold at the reference price. */
  lemma {:induction false} TotalRevenueIsPricedLiters(ponds: map<string, string>, raw: seq<RawTreatment>)
    ensures TotalRevenue(Rows(ponds, raw)) == TotalLiters(Rows(ponds, raw)) * PricePerLiter
  {
    if |raw| > 0 {
      TotalRevenueIsPricedLiters(ponds, raw[1..]);
      assert Rows(ponds, raw)[1..] == Rows(ponds, raw[1..]);
    }
  }

  /** Sum and number of the defined effectiveness values. */
  function EffectivenessSum(rows: seq<TreatmentRow>): real {
    if |rows| == 0 then 0.0
    else (if rows[0].effectiveness.Some? then rows[0].effectiveness.value else 0.0)
         + EffectivenessSum(rows[1..])
  }

  function EffectivenessCount(rows: seq<TreatmentRow>): nat {
    if |rows| == 0 then 0
    else (if rows[0].effectiveness.Some? then 1 else 0) + EffectivenessCount(rows[1..])
  }

  lemma {:induction false} CountZeroMeansNoneDefined(rows: seq<TreatmentRow>)
    ensures EffectivenessCount(rows) == 0 <==> forall i :: 0 <= i < |rows| ==> rows[i].effectiveness.None?
  {
    if |rows| > 0 {
      CountZeroMeansNoneDefined(rows[1..]);
      assert forall i :: 1 <= i < |rows| ==> rows[i] == rows[1..][i - 1];
    }
  }

  /** Average effectiveness over the treatments that have one; absent when none has. */
  function AverageEffectiveness(rows: seq<TreatmentRow>): (avg: Option<real>)
    ensures avg.None? <==> forall i :: 0 <= i < |rows| ==> rows[i].effectiveness.None?
    ensures avg.Some? ==> avg.value * EffectivenessCount(rows) as real == EffectivenessSum(rows)
  {
    CountZeroMeansNoneDefined(rows);
    if EffectivenessCount(rows) == 0 then None
    else Some(EffectivenessSum(rows) / EffectivenessCount(rows) as real)
  }

  /** All defined values lie in [lo, hi]. */
  predicate DefinedWithin(rows: seq<TreatmentRow>, lo: real, hi: real) {
    forall i :: 0 <= i < |rows| && rows[i].effectiveness.Some? ==>
      lo <= rows[i].effectiveness.value <= hi
  }

  lemma {:induction false} SumWithin(rows: seq<TreatmentRow>, lo: real, hi: real)
    requires DefinedWithin(rows, lo, hi)
    ensures lo * EffectivenessCount(rows) as real <= EffectivenessSum(rows)
    ensures EffectivenessSum(rows) <= hi * EffectivenessCount(rows) as real
  {
    if |rows| > 0 {
      assert DefinedWithin(rows[1..], lo, hi) by {
        assert forall i :: 0 <= i < |rows[1..]| ==> rows[1..][i] == rows[i + 1];
      }
      SumWithin(rows[1..], lo, hi);
    }
  }

  /** The average lies within any bounds of the values it averages: treatments without a value are not zeros. */
  lemma AverageWithin(rows: seq<TreatmentRow>, lo: real, hi: real)
    requires DefinedWithin(rows, lo, hi)
    requires AverageEffectiveness(rows).Some?
    ensures lo <= AverageEffectiveness(rows).value <= hi
  {
    SumWithin(rows, lo, hi);
    var n := EffectivenessCount(rows) as real;
    var s := EffectivenessSum(rows);
    assert n > 0.0;
    assert lo * n <= s <= hi * n;
    assert AverageEffectiveness(rows).value == s / n;
    DivideBounds(s, n, lo, hi);
  }

  lemma DivideBounds(s: real, n: real, lo: real, hi: real)
    requires n > 0.0
    requires lo * n <= s <= hi * n
    ensures lo <= s / n <= hi
  {
    assert s / n * n == s;
  }

  /** A treatment without effectiveness leaves the average unchanged. */
  lemma AverageIgnoresUndefined(row: TreatmentRow, rows: seq<TreatmentRow>)
    requires row.effectiveness.None?
    ensures AverageEffectiveness([row] + rows) == AverageEffectiveness(rows)
  {
    assert ([row] + rows)[1..] == rows;
  }

  /** Effectiveness 75 and -100 with one treatment lacking readings average to -12.5, not to -8.33. */
  lemma AverageExample()
    ensures var row := TreatmentRow("P1", "2024-05-01", "Bio", 2.0, None, None, None, 25.0, None);
            AverageEffectiveness([row.(effectiveness := Some(75.0)), row, row.(effectiveness := Some(-100.0))])
              == Some(-12.5)
  {
    var row := TreatmentRow("P1", "2024-05-01", "Bio", 2.0, None, None, None, 25.0, None);
    var rows := [row.(effectiveness := Some(75.0)), row, row.(effectiveness := Some(-100.0))];
    assert rows[1..] == [row, row.(effectiveness := Some(-100.0))];
    assert rows[1..][1..] == [row.(effectiveness := Some(-100.0))];
    assert rows[1..][1..][1..] == [];
    assert EffectivenessCount(rows[1..][1..]) == 1 && EffectivenessSum(rows[1..][1..]) == -100.0;
    assert EffectivenessCount(rows[1..]) == 1 && EffectivenessSum(rows[1..]) == -100.0;
    assert EffectivenessCount(rows) == 2 && EffectivenessSum(rows) == -25.0;
  }

  /** 75, 60 and -100 average to 35/3: the mean of all three, not the midpoint -12.5 of the extremes. */
  lemma MeanExample()
    ensures var row := TreatmentRow("P1", "2024-05-01", "Bio", 2.0, None, None, None, 25.0, None);
            AverageEffectiveness([row.(effectiveness := Some(75.0)), row.(effectiveness := Some(60.0)),
                                  row.(effectiveness := Some(-100.0))])
              == Some(35.0 / 3.0)
  {
    var row := TreatmentRow("P1", "2024-05-01", "Bio", 2.0, None, None, None, 25.0, None);
    var rows := [row.(effectiveness := Some(75.0)), row.(effectiveness := Some(60.0)),
                 row.(effectiveness := Some(-100.0))];
    assert rows[1..] == [row.(effectiveness := Some(60.0)), row.(effectiveness := Some(-100.0))];
    assert rows[1..][1..] == [row.(effectiveness := Some(-100.0))];
    assert rows[1..][1..][1..] == [];
    assert EffectivenessCount(rows[1..][1..]) == 1 && EffectivenessSum(rows[1..][1..]) == -100.0;
    assert EffectivenessCount(rows[1..]) == 2 && EffectivenessSum(rows[1..]) == -40.0;
    assert EffectivenessCount(rows) == 3 && EffectivenessSum(rows) == 35.0;
  }

  /** Average revenue per treatment, shown as 0 with no treatments. */
  function AverageTicket(rows: seq<TreatmentRow>): (t: real)
    ensures |rows| == 0 ==> t == 0.0
    ensures |rows| > 0 ==> t * |rows| as real == TotalRevenue(rows)
  {
    if |rows| > 0 then TotalRevenue(rows) / |rows| as real else 0.0
  }

  datatype BadgeTier = Effective | Moderate | Poor

  /** The colour band of an effectiveness badge. */
  function Badge(e: real): (b: BadgeTier)
    ensures b == Effective <==> e >= 60.0
    ensures b == Moderate <==> 30.0 <= e < 60.0
    ensures b == Poor <==> e < 30.0
  {
    if e >= 60.0 then Effective else if e >= 30.0 then Moderate else Poor
  }
}

=== FILE: dates.dfy ===
/**
 * Ordering of `record_date` strings. The dashboard sorts with
 * `a.localeCompare(b)` and the database orders by `record_date`; on the
 * fixed-width `YYYY-MM-DD` strings both agree with the character-by-character
 * order defined here.
 */
module Dates {

  /** `a` sorts at or before `b`: lexicographic order on characters. */
  predicate LexLe(a: string, b: string)
    decreases |a|
  {
    |a| == 0 || (|b| > 0 && (a[0] < b[0] || (a[0] == b[0] && LexLe(a[1..], b[1..]))))
  }

  lemma {:induction false} LexLeReflexive(a: string)
    ensures LexLe(a, a)
    decreases |a|
  {
    if |a| > 0 {
      LexLeReflexive(a[1..]);
    }
  }

  /** Any two dates are comparable, so a sort by date is well defined. */
  lemma {:induction false} LexLeTotal(a: string, b: string)
    ensures LexLe(a, b) || LexLe(b, a)
    decreases |a|
  {
    if |a| > 0 && |b| > 0 && a[0] == b[0] {
      LexLeTotal(a[1..], b[1..]);
    }
  }

  lemma {:induction false} LexLeTransitive(a: string, b: string, c: string)
    requires LexLe(a, b) && LexLe(b, c)
    ensures LexLe(a, c)
    decreases |a|
  {
    if |a| > 0 && a[0] == b[0] && b[0] == c[0] {
      LexLeTransitive(a[1..], b[1..], c[1..]);
    }
  }

  /** Two dates that sort at or before each other are the same date. */
  lemma {:induction false} LexLeAntisymmetric(a: string, b: string)
    requires LexLe(a, b) && LexLe(b, a)
    ensures a == b
    decreases |a|
  {
    if |a| > 0 {
      LexLeAntisymmetric(a[1..], b[1..]);
      assert a == [a[0]] + a[1..];
      assert b == [b[0]] + b[1..];
    }
  }
}

=== FILE: dose_tiers.dfy ===
/**
 * Step tables that map a pond volume to a dose rate: `table.find(...)` for
 * the first tier whose inclusive upper bound admits the volume, falling back
 * to the last tier.
 */
module DoseTiers {
  import opened Wrappers

  /** An inclusive upper volume bound in m3; `Infinity` becomes `Unbounded`. */
  datatype Bound = UpTo(max: real) | Unbounded

  /** A table row: upper volume bound, litres of product per m3, size label. */
  datatype Tier = Tier(maxVolume: Bound, dose: real, sizeLabel: string)

  /** What a calculation shows: volume, rate, total litres and size label. */
  datatype DoseResult = DoseResult(volume: real, dose: real, totalDose: real, sizeLabel: string)

  /** `volume <= d.maxVolume`. */
  predicate Fits(volume: real, t: Tier) {
    t.maxVolume.Unbounded? || volume <= t.maxVolume.max
  }

  /** Bounds strictly ascending, the last one unbounded, rates strictly decreasing. */
  predicate WellFormed(table: seq<Tier>) {
    && |table| > 0
    && table[|table| - 1].maxVolume.Unbounded?
    && (forall i :: 0 <= i < |table| - 1 ==> table[i].maxVolume.UpTo?)
    && (forall i, j :: 0 <= i < j < |table| - 1 ==> table[i].maxVolume.max < table[j].maxVolume.max)
    && (forall i, j :: 0 <= i < j < |table| ==> table[i].dose > table[j].dose)
  }

  /** Index of the first tier at or after `from` that admits `volume`. */
  function FirstFit(table: seq<Tier>, volume: real, from: nat): (r: Option<nat>)
    requires from <= |table|
    ensures r.Some? ==> from <= r.value < |table| && Fits(volume, table[r.value])
    ensures r.Some? ==> forall j :: from <= j < r.value ==> !Fits(volume, table[j])
    ensures r.None? ==> forall j :: from <= j < |table| ==> !Fits(volume, table[j])
    decreases |table| - from
  {
    if from == |table| then None
    else if Fits(volume, table[from]) then Some(from)
    else FirstFit(table, volume, from + 1)
  }

  /** `table.find(d => volume <= d.maxVolume) ?? table[table.length - 1]`. */
  function Lookup(table: seq<Tier>, volume: real): (t: Tier)
    requires |table| > 0
    ensures t in table
  {
    match FirstFit(table, volume, 0)
    case Some(i) => table[i]
    case None => table[|table| - 1]
  }

  /** With an unbounded last tier some tier always matches: the fallback is never used. */
  lemma {:induction false} AlwaysFits(table: seq<Tier>, volume: real)
    requires |table| > 0 && table[|table| - 1].maxVolume.Unbounded?
    ensures FirstFit(table, volume, 0).Some?
  {
    assert Fits(volume, table[|table| - 1]);
  }

  /** A larger volume never selects an earlier tier. */
  lemma {:induction false} FirstFitMonotone(table: seq<Tier>, v1: real, v2: real)
    requires WellFormed(table)
    requires v1 <= v2
    ensures FirstFit(table, v1, 0).value <= FirstFit(table, v2, 0).value
  {
    AlwaysFits(table, v1);
    AlwaysFits(table, v2);
    var i2 := FirstFit(table, v2, 0).value;
    assert Fits(v1, table[i2]);
  }

  /** A larger volume never gets a higher rate. */
  lemma {:induction false} RateNonIncreasing(table: seq<Tier>, v1: real, v2: real)
    requires WellFormed(table)
    requires v1 <= v2
    ensures Lookup(table, v1).dose >= Lookup(table, v2).dose
  {
    AlwaysFits(table, v1);
    AlwaysFits(table, v2);
    FirstFitMonotone(table, v1, v2);
  }

  /** In a well-formed table the selected tier is the one whose range holds the volume. */
  lemma {:induction false} LookupInRange(table: seq<Tier>, volume: real, i: nat)
    requires WellFormed(table)
    requires i < |table|
    requires i > 0 ==> volume > table[i - 1].maxVolume.max
    requires Fits(volume, table[i])
    ensures Lookup(table, volume) == table[i]
  {
    AlwaysFits(table, volume);
    forall j | 0 <= j < i
      ensures !Fits(volume, table[j])
    {
      if j < i - 1 {
        assert table[j].maxVolume.max < table[i - 1].maxVolume.max;
      }
    }
  }
}

=== FILE: js_numbers.dfy ===
/**
 * The few pieces of JavaScript number semantics the dashboard relies on:
 * truthiness of a nullable number, the result of a division (which can be
 * infinite), comparing such a result with a threshold, and what a JSON
 * request body makes of it.
 */
module JsNumbers {
  import opened Wrappers

  /** `if (x)` on a `number | null`: false for null and for 0. */
  predicate Truthy(x: Option<real>)
    ensures x.None? ==> !Truthy(x)
    ensures x == Some(0.0) ==> !Truthy(x)
    ensures x.Some? && x.value != 0.0 ==> Truthy(x)
  {
    x.Some? && x.value != 0.0
  }

  /** `if (n)` on an integer count that may be null. */
  predicate TruthyInt(n: Option<int>)
    ensures n.None? ==> !TruthyInt(n)
    ensures n == Some(0) ==> !TruthyInt(n)
    ensures n.Some? && n.value != 0 ==> TruthyInt(n)
  {
    n.Some? && n.value != 0
  }

  /** A double produced by `/`; only division by zero leaves the reals. */
  datatype Ratio = Finite(value: real) | PosInfinity | NegInfinity

  /** JavaScript `a / b` for a non-zero numerator. */
  function Divide(a: real, b: real): (r: Ratio)
    requires a != 0.0
    ensures b != 0.0 <==> r.Finite?
    ensures r.Finite? ==> r.value * b == a
    ensures r == PosInfinity <==> b == 0.0 && a > 0.0
  {
    if b != 0.0 then Finite(a / b)
    else if a > 0.0 then PosInfinity
    else NegInfinity
  }

  /** JavaScript `r > t` for a finite threshold `t`. */
  predicate Exceeds(r: Ratio, t: real)
    ensures r.Finite? ==> (Exceeds(r, t) <==> r.value > t)
    ensures r == PosInfinity ==> Exceeds(r, t)
    ensures r == NegInfinity ==> !Exceeds(r, t)
  {
    match r
    case Finite(v) => v > t
    case PosInfinity => true
    case NegInfinity => false
  }

  /** `JSON.stringify` writes a non-finite number as `null`. */
  function ToJson(r: Option<Ratio>): (j: Option<real>)
    ensures j.Some? <==> r.Some? && r.value.Finite?
    ensures j.Some? ==> j.value == r.value.value
  {
    match r
    case Some(Finite(v)) => Some(v)
    case _ => None
  }
}

=== FILE: ponds.dfy ===
/**
 * Pond and batch rows as the pond actions write them, and the life of a
 * batch's population: set at creation, lowered by confirmed mortality,
 * untouched by closing.
 */
module Ponds {
  import opened Wrappers
  import opened JsNumbers
  import Production

  datatype Status = Active | Closed

  datatype Batch = Batch(
    pondId: string,
    startDate: string,
    endDate: Option<string>,
    initialPopulation: int,
    currentPopulation: Option<int>,
    status: Status)

  /** A batch row as `createBatch` inserts it. */
  function CreateBatch(pondId: string, startDate: string, initialPopulation: int): (b: Batch)
    ensures b.status == Active && b.endDate.None?
    ensures b.currentPopulation == Some(b.initialPopulation)
    ensures b.initialPopulation == initialPopulation
    ensures b.pondId == pondId && b.startDate == startDate
  {
    Batch(pondId, startDate, None, initialPopulation, Some(initialPopulation), Active)
  }

  /** `closeBatch`: only the status and the end date change. */
  function CloseBatch(b: Batch, today: string): (b': Batch)
    ensures b'.status == Closed && b'.endDate == Some(today)
    ensures b'.currentPopulation == b.currentPopulation
    ensures b'.initialPopulation == b.initialPopulation
    ensures b'.pondId == b.pondId && b'.startDate == b.startDate
  {
    b.(status := Closed, endDate := Some(today))
  }

  /** What the confirmation action reads of a batch. */
  function Snapshot(b: Batch): Production.BatchSnapshot {
    Production.BatchSnapshot(b.currentPopulation, b.initialPopulation)
  }

  /**
   * The batch after a record is confirmed against it. Nothing checks the
   * status: a closed batch still takes the record's mortality.
   */
  function Confirm(b: Batch, obs: Production.Observation): (b': Batch)
    ensures b'.status == b.status && b'.initialPopulation == b.initialPopulation
    ensures b'.pondId == b.pondId && b'.startDate == b.startDate && b'.endDate == b.endDate
    ensures b'.currentPopulation != b.currentPopulation ==>
              obs.mortalityCount.Some? && obs.mortalityCount.value > 0
    ensures obs.mortalityCount.Some? && obs.mortalityCount.value > 0 ==>
              b'.currentPopulation == Production.NewPopulation(obs, Some(Snapshot(b)))
    ensures obs.mortalityCount.None? || obs.mortalityCount.value <= 0 ==> b' == b
  {
    match Production.NewPopulation(obs, Some(Snapshot(b)))
    case Some(p) => b.(currentPopulation := Some(p))
    case None => b
  }

  datatype Event = RecordConfirmed(obs: Production.Observation) | BatchClosed(today: string)

  function Apply(b: Batch, e: Event): Batch {
    match e
    case RecordConfirmed(obs) => Confirm(b, obs)
    case BatchClosed(today) => CloseBatch(b, today)
  }

  function Replay(b: Batch, events: seq<Event>): Batch
    decreases |events|
  {
    if |events| == 0 then b else Replay(Apply(b, events[0]), events[1..])
  }

  /** The population is recorded and lies between 0 and the initial population. */
  predicate PopulationInBounds(b: Batch) {
    b.currentPopulation.Some? && 0 <= b.currentPopulation.value <= b.initialPopulation
  }

  /** Every event keeps the population within bounds and never raises it. */
  lemma ApplyKeepsBounds(b: Batch, e: Event)
    requires PopulationInBounds(b)
    ensures PopulationInBounds(Apply(b, e))
    ensures Apply(b, e).currentPopulation.value <= b.currentPopulation.value
    ensures Apply(b, e).initialPopulation == b.initialPopulation
  {
  }

  lemma {:induction false} ReplayKeepsBounds(b: Batch, events: seq<Event>)
    requires PopulationInBounds(b)
    ensures PopulationInBounds(Replay(b, events))
    ensures Replay(b, events).currentPopulation.value <= b.currentPopulation.value
    ensures Replay(b, events).initialPopulation == b.initialPopulation
    decreases |events|
  {
    if |events| > 0 {
      ApplyKeepsBounds(b, events[0]);
      ReplayKeepsBounds(Apply(b, events[0]), events[1..]);
    }
  }

  /**
   * From creation with a non-negative initial population, any sequence of
   * confirmations and closings keeps 0 <= current <= initial.
   */
  lemma CreatedBatchStaysInBounds(pondId: string, startDate: string, initial: int, events: seq<Event>)
    requires initial >= 0
    ensures PopulationInBounds(Replay(CreateBatch(pondId, startDate, initial), events))
    ensures Replay(CreateBatch(pondId, startDate, initial), events).initialPopulation == initial
  {
    ReplayKeepsBounds(CreateBatch(pondId, startDate, initial), events);
  }

  /** A closed batch of 100 that is sent a record with 30 deaths goes down to 70. */
  lemma ClosedBatchStillTakesMortality()
    ensures var b := CloseBatch(CreateBatch("p", "2024-01-01", 100), "2024-06-01");
            var obs := Production.Observation("b", "2024-06-02", None, None, Some(30),
                                              None, None, None, None, None, None, None);
            Confirm(b, obs) == b.(currentPopulation := Some(70))
  {
  }

  datatype PondForm = PondForm(
    name: Option<string>,
    areaM2: Option<real>,
    depthM: Option<real>,
    species: Option<string>,
    orgName: Option<string>)

  datatype PondRow = PondRow(
    organizationId: string,
    name: Option<string>,
    areaM2: Option<real>,
    depthM: Option<real>,
    species: Option<string>,
    status: Status)

  /** The organization to create first, if any, and the pond row to insert. */
  datatype PondPlan = PondPlan(newOrganization: Option<string>, pond: PondRow)

  /** `Number(x) || null`: a missing, empty, non-numeric or zero field becomes null. */
  function NumberOrNull(x: Option<real>): (r: Option<real>)
    ensures r.Some? <==> Truthy(x)
    ensures r.Some? ==> r == x
  {
    if Truthy(x) then x else None
  }

  /** `s || fallback` on a form field. */
  function TextOr(s: Option<string>, fallback: Option<string>): (r: Option<string>)
    ensures s.Some? && s.value != "" ==> r == s
    ensures s.None? || s.value == "" ==> r == fallback
  {
    if s.Some? && s.value != "" then s else fallback
  }

  const DefaultOrganizationName: string := "Mi Granja"

  /**
   * `createPond`: an organization is created (named from the form or
   * "Mi Granja") only when the profile has none; the pond is active and
   * its zero or empty fields are stored as null.
   */
  function CreatePond(authenticated: bool, profileOrg: Option<string>, form: PondForm, createdOrgId: string)
    : (r: Option<PondPlan>)
    ensures r.Some? <==> authenticated
    ensures r.Some? ==> (r.value.newOrganization.None? <==> profileOrg.Some? && profileOrg.value != "")
    ensures r.Some? && r.value.newOrganization.None? ==> r.value.pond.organizationId == profileOrg.value
    ensures r.Some? && r.value.newOrganization.Some? ==>
              r.value.pond.organizationId == createdOrgId
              && r.value.newOrganization.value != ""
              && (form.orgName.Some? && form.orgName.value != "" ==> r.value.newOrganization == form.orgName)
              && (form.orgName.None? || form.orgName.value == "" ==>
                    r.value.newOrganization == Some(DefaultOrganizationName))
    ensures r.Some? ==> r.value.pond.status == Active
    ensures r.Some? ==> r.value.pond.name == form.name
    ensures r.Some? ==> (r.value.pond.areaM2.Some? <==> Truthy(form.areaM2))
    ensures r.Some? ==> (r.value.pond.depthM.Some? <==> Truthy(form.depthM))
    ensures r.Some? ==> (r.value.pond.species.Some? <==> form.species.Some? && form.species.value != "")
    ensures r.Some? && r.value.pond.areaM2.Some? ==> r.value.pond.areaM2 == form.areaM2
    ensures r.Some? && r.value.pond.depthM.Some? ==> r.value.pond.depthM == form.depthM
    ensures r.Some? && r.value.pond.species.Some? ==> r.value.pond.species == form.species
  {
    if !authenticated then None
    else
      var hasOrg := profileOrg.Some? && profileOrg.value != "";
      var newOrg := if hasOrg then None else TextOr(form.orgName, Some(DefaultOrganizationName));
      var orgId := if hasOrg then profileOrg.value else createdOrgId;
      Some(PondPlan(newOrg, PondRow(orgId, form.name, NumberOrNull(form.areaM2), NumberOrNull(form.depthM),
                                    TextOr(form.species, None), Active)))
  }

  /**
   * A first pond for a user without an organization: the organization is
   * created as "Mi Granja", and a zero area, a missing depth and an empty
   * species are all stored as null.
   */
  lemma CreatePondWithoutOrganization()
    ensures var form := PondForm(Some("Estanque 1"), Some(0.0), None, Some(""), None);
            CreatePond(true, None, form, "org-1")
              == Some(PondPlan(Some("Mi Granja"), PondRow("org-1", Some("Estanque 1"), None, None, None, Active)))
  {
  }
}

=== FILE: production.dfy ===
/**
 * Confirmation of a production record: the derived biomass and feed
 * conversion ratio (FCA), the batch population after this record's
 * mortality, the stored record, and the threshold alerts.
 *
 * The database reads of the action become parameters: the batch snapshot
 * (absent when the batch id matches nothing), the latest existing record of
 * the batch, the signed-in user and the user's organization.
 */
module Production {
  import opened Wrappers
  import opened JsNumbers
  import opened Dates
  import opened Alerting

  /** A candidate record, as submitted from manual entry or OCR review. */
  datatype Observation = Observation(
    batchId: string,
    recordDate: string,
    feedKg: Option<real>,
    avgWeightG: Option<real>,
    mortalityCount: Option<int>,
    temperatureC: Option<real>,
    oxygenMgL: Option<real>,
    ammoniaMgL: Option<real>,
    nitriteMgL: Option<real>,
    nitrateMgL: Option<real>,
    ph: Option<real>,
    notes: Option<string>)

  /** The two population columns of the batch row. */
  datatype BatchSnapshot = BatchSnapshot(currentPopulation: Option<int>, initialPopulation: int)

  /** A row of `production_records` as the action inserts it. */
  datatype ProductionRecord = ProductionRecord(
    batchId: string,
    recordDate: string,
    feedKg: Option<real>,
    avgWeightG: Option<real>,
    mortalityCount: int,
    temperatureC: Option<real>,
    oxygenMgL: Option<real>,
    ammoniaMgL: Option<real>,
    nitriteMgL: Option<real>,
    nitrateMgL: Option<real>,
    ph: Option<real>,
    notes: Option<string>,
    calculatedFca: Option<real>,
    calculatedBiomassKg: Option<real>,
    confirmedBy: string)

  /**
   * What a confirmation writes: the record, the new batch population when the
   * batch row is updated, and the alerts inserted for the organization.
   */
  datatype Confirmation = Confirmation(
    record: ProductionRecord,
    newPopulation: Option<int>,
    alerts: seq<Alert>)

  datatype ConfirmResult = Confirmed(confirmation: Confirmation) | NotAuthenticated

  /** `current_population ?? initial_population`: a stored 0 is kept. */
  function Population(b: BatchSnapshot): (p: int)
    ensures b.currentPopulation.Some? ==> p == b.currentPopulation.value
    ensures b.currentPopulation.None? ==> p == b.initialPopulation
  {
    b.currentPopulation.GetOr(b.initialPopulation)
  }

  /**
   * Estimated biomass in kg: population before this record's mortality times
   * the average weight in grams. Absent, never zero by default, when there is
   * no batch or no (non-zero) weight.
   */
  function BiomassKg(obs: Observation, batch: Option<BatchSnapshot>): (r: Option<real>)
    ensures r.Some? <==> batch.Some? && Truthy(obs.avgWeightG)
    ensures r.Some? ==> r.value * 1000.0 == Population(batch.value) as real * obs.avgWeightG.value
    ensures r.Some? ==> (r.value == 0.0 <==> Population(batch.value) == 0)
  {
    if batch.Some? && Truthy(obs.avgWeightG) then
      Some((Population(batch.value) as real * obs.avgWeightG.value) / 1000.0)
    else None
  }

  /** All the inputs the FCA formula needs are there and the weight went up. */
  predicate FcaApplies(obs: Observation, batch: Option<BatchSnapshot>, prev: Option<ProductionRecord>) {
    && Truthy(obs.feedKg)
    && Truthy(obs.avgWeightG)
    && prev.Some?
    && Truthy(prev.value.avgWeightG)
    && obs.avgWeightG.value - prev.value.avgWeightG.value > 0.0
    && batch.Some?
  }

  /** Weight gained by the whole batch since the previous record, in kg. */
  function GainKg(obs: Observation, batch: Option<BatchSnapshot>, prev: Option<ProductionRecord>): real
    requires FcaApplies(obs, batch, prev)
  {
    ((obs.avgWeightG.value - prev.value.avgWeightG.value) * Population(batch.value) as real) / 1000.0
  }

  /**
   * The FCA exactly as the action computes it in JavaScript: with a batch
   * population of 0 the gain is 0 kg and the division yields an infinity.
   */
  function FcaAsWritten(obs: Observation, batch: Option<BatchSnapshot>, prev: Option<ProductionRecord>)
    : (r: Option<Ratio>)
    ensures r.Some? <==> FcaApplies(obs, batch, prev)
    ensures r.Some? ==> (r.value.Finite? <==> Population(batch.value) != 0)
    ensures r.Some? && r.value.Finite? ==> r.value.value * GainKg(obs, batch, prev) == obs.feedKg.value
  {
    if FcaApplies(obs, batch, prev) then Some(Divide(obs.feedKg.value, GainKg(obs, batch, prev)))
    else None
  }

  /**
   * The FCA: feed divided by the batch's weight gain, present only when every
   * input is present and non-zero, the weight went up and the population is
   * not 0 (there is no gain to divide by otherwise).
   */
  function Fca(obs: Observation, batch: Option<BatchSnapshot>, prev: Option<ProductionRecord>)
    : (r: Option<real>)
    ensures r.Some? <==> FcaApplies(obs, batch, prev) && Population(batch.value) != 0
    ensures r.Some? ==> r.value * GainKg(obs, batch, prev) == obs.feedKg.value
    ensures r.Some? && obs.feedKg.value > 0.0 && Population(batch.value) > 0 ==> r.value > 0.0
  {
    if FcaApplies(obs, batch, prev) && Population(batch.value) != 0 then
      Some(obs.feedKg.value / GainKg(obs, batch, prev))
    else None
  }

  /** Where both are defined, the corrected FCA is the one the action computes. */
  lemma FcaMatchesAsWritten(obs: Observation, batch: Option<BatchSnapshot>, prev: Option<ProductionRecord>)
    ensures Fca(obs, batch, prev).Some? ==> FcaAsWritten(obs, batch, prev) == Some(Finite(Fca(obs, batch, prev).value))
    ensures Fca(obs, batch, prev).None? ==> ToJson(FcaAsWritten(obs, batch, prev)).None?
  {
  }

  /**
   * The batch population after this record: written only for a positive
   * mortality count on an existing batch, and floored at 0.
   */
  function NewPopulation(obs: Observation, batch: Option<BatchSnapshot>): (r: Option<int>)
    ensures r.Some? <==> batch.Some? && obs.mortalityCount.Some? && obs.mortalityCount.value > 0
    ensures r.Some? ==> 0 <= r.value
    ensures r.Some? ==> (r.value == 0 <==> obs.mortalityCount.value >= Population(batch.value))
    ensures r.Some? && r.value > 0 ==> r.value + obs.mortalityCount.value == Population(batch.value)
    ensures r.Some? && Population(batch.value) >= 0 ==> r.value < Population(batch.value) || r.value == 0
  {
    if TruthyInt(obs.mortalityCount) && obs.mortalityCount.value > 0 && batch.Some? then
      var newPop := Population(batch.value) - obs.mortalityCount.value;
      Some(if newPop > 0 then newPop else 0)
    else None
  }

  /**
   * The inserted record carries the submitted batch, date, feed, weight,
   * water readings and notes unchanged.
   */
  predicate StoresReadings(record: ProductionRecord, obs: Observation) {
    && record.batchId == obs.batchId
    && record.recordDate == obs.recordDate
    && record.feedKg == obs.feedKg
    && record.avgWeightG == obs.avgWeightG
    && record.temperatureC == obs.temperatureC
    && record.oxygenMgL == obs.oxygenMgL
    && record.ammoniaMgL == obs.ammoniaMgL
    && record.nitriteMgL == obs.nitriteMgL
    && record.nitrateMgL == obs.nitrateMgL
    && record.ph == obs.ph
    && record.notes == obs.notes
  }

  /** `profile?.organization_id` is truthy. */
  predicate HasOrganization(org: Option<string>) {
    org.Some? && org.value != ""
  }

  /**
   * The confirmation given the FCA value the action holds in memory. The
   * stored FCA is that value as the JSON request body carries it.
   */
  function Assemble(
    userId: string, obs: Observation, batch: Option<BatchSnapshot>, fca: Option<Ratio>,
    org: Option<string>): (c: Confirmation)
    ensures StoresReadings(c.record, obs)
    ensures c.record.confirmedBy == userId
    ensures c.record.calculatedFca == ToJson(fca)
    ensures c.record.mortalityCount == obs.mortalityCount.GetOr(0)
    ensures !HasOrganization(org) ==> c.alerts == []
    ensures HasOrganization(org) ==>
              c.alerts == Evaluate(Readings(obs.oxygenMgL, obs.ammoniaMgL, obs.mortalityCount, fca))
  {
    var record := ProductionRecord(
      obs.batchId, obs.recordDate, obs.feedKg, obs.avgWeightG, obs.mortalityCount.GetOr(0),
      obs.temperatureC, obs.oxygenMgL, obs.ammoniaMgL, obs.nitriteMgL, obs.nitrateMgL, obs.ph,
      obs.notes, ToJson(fca), BiomassKg(obs, batch), userId);
    var alerts :=
      if HasOrganization(org) then Evaluate(Readings(obs.oxygenMgL, obs.ammoniaMgL, obs.mortalityCount, fca))
      else [];
    Confirmation(record, NewPopulation(obs, batch), alerts)
  }

  /** The action as written, including the infinite FCA of an empty batch. */
  function ConfirmAsWritten(
    user: Option<string>, obs: Observation, batch: Option<BatchSnapshot>,
    prev: Option<ProductionRecord>, org: Option<string>): (r: ConfirmResult)
    ensures r.NotAuthenticated? <==> user.None?
    ensures r.Confirmed? ==> StoresReadings(r.confirmation.record, obs)
    ensures r.Confirmed? && HasOrganization(org) ==>
              (Raised(r.confirmation.alerts, HighFca) <==>
                 FcaAsWritten(obs, batch, prev).Some? && Exceeds(FcaAsWritten(obs, batch, prev).value, FcaMax))
    ensures r.Confirmed? && HasOrganization(org) ==>
              r.confirmation.alerts
                == Evaluate(Readings(obs.oxygenMgL, obs.ammoniaMgL, obs.mortalityCount, FcaAsWritten(obs, batch, prev)))
  {
    match user
    case None => NotAuthenticated
    case Some(id) =>
      EvaluateRules(Readings(obs.oxygenMgL, obs.ammoniaMgL, obs.mortalityCount, FcaAsWritten(obs, batch, prev)));
      Confirmed(Assemble(id, obs, batch, FcaAsWritten(obs, batch, prev), org))
  }

  /**
   * The action as written and the corrected confirmation store the same record
   * and the same population; their alerts differ only for an empty batch whose
   * weight rose.
   */
  lemma AsWrittenDiffersOnlyOnEmptyBatch(
    user: Option<string>, obs: Observation, batch: Option<BatchSnapshot>,
    prev: Option<ProductionRecord>, org: Option<string>)
    requires user.Some?
    ensures ConfirmAsWritten(user, obs, batch, prev, org).confirmation.record
              == Confirm(user, obs, batch, prev, org).confirmation.record
    ensures ConfirmAsWritten(user, obs, batch, prev, org).confirmation.newPopulation
              == Confirm(user, obs, batch, prev, org).confirmation.newPopulation
    ensures !(FcaApplies(obs, batch, prev) && Population(batch.value) == 0) ==>
              ConfirmAsWritten(user, obs, batch, prev, org).confirmation.alerts
                == Confirm(user, obs, batch, prev, org).confirmation.alerts
  {
    FcaMatchesAsWritten(obs, batch, prev);
  }

  /**
   * The confirmation, with the FCA taken as absent when the batch population
   * is 0, so that a high-FCA alert is raised exactly when the stored FCA
   * exceeds its threshold.
   */
  function Confirm(
    user: Option<string>, obs: Observation, batch: Option<BatchSnapshot>,
    prev: Option<ProductionRecord>, org: Option<string>): (r: ConfirmResult)
    ensures r.NotAuthenticated? <==> user.None?
    ensures r.Confirmed? ==> StoresReadings(r.confirmation.record, obs)
    ensures r.Confirmed? ==> r.confirmation.record.confirmedBy == user.value
    ensures r.Confirmed? ==> r.confirmation.record.calculatedFca == Fca(obs, batch, prev)
    ensures r.Confirmed? ==> r.confirmation.record.calculatedBiomassKg == BiomassKg(obs, batch)
    ensures r.Confirmed? ==> r.confirmation.newPopulation == NewPopulation(obs, batch)
    ensures r.Confirmed? ==> r.confirmation.record.mortalityCount == obs.mortalityCount.GetOr(0)
    ensures r.Confirmed? && HasOrganization(org) ==>
              (Raised(r.confirmation.alerts, HighFca) <==>
                 r.confirmation.record.calculatedFca.Some? && r.confirmation.record.calculatedFca.value > FcaMax)
    ensures r.Confirmed? && HasOrganization(org) ==>
              r.confirmation.alerts
                == Evaluate(Readings(obs.oxygenMgL, obs.ammoniaMgL, obs.mortalityCount,
                                     if Fca(obs, batch, prev).Some? then Some(Finite(Fca(obs, batch, prev).value)) else None))
  {
    match user
    case None => NotAuthenticated
    case Some(id) =>
      var fca := Fca(obs, batch, prev);
      var c := Assemble(id, obs, batch, if fca.Some? then Some(Finite(fca.value)) else None, org);
      EvaluateRules(Readings(obs.oxygenMgL, obs.ammoniaMgL, obs.mortalityCount, if fca.Some? then Some(Finite(fca.value)) else None));
      Confirmed(c)
  }

  /** The alerts of a confirmation follow the observation's readings rule by rule. */
  lemma ConfirmAlertRules(
    user: Option<string>, obs: Observation, batch: Option<BatchSnapshot>,
    prev: Option<ProductionRecord>, org: Option<string>)
    requires user.Some? && HasOrganization(org)
    ensures var alerts := Confirm(user, obs, batch, prev, org).confirmation.alerts;
      && InRuleOrder(alerts)
      && (Raised(alerts, LowOxygen) <==> obs.oxygenMgL.Some? && obs.oxygenMgL.value < OxygenMin)
      && (Raised(alerts, HighAmmonia) <==> obs.ammoniaMgL.Some? && obs.ammoniaMgL.value > AmmoniaMax)
      && (Raised(alerts, HighMortality) <==>
            obs.mortalityCount.Some? && obs.mortalityCount.value > MortalityMax)
      && (Raised(alerts, HighFca) <==>
            Fca(obs, batch, prev).Some? && Fca(obs, batch, prev).value > FcaMax)
    ensures var alerts := Confirm(user, obs, batch, prev, org).confirmation.alerts;
      && (forall a :: a in alerts && a.kind == LowOxygen ==>
            (a.severity == Critical <==> obs.oxygenMgL.value < OxygenCritical))
      && (forall a :: a in alerts && a.kind == HighAmmonia ==>
            (a.severity == Critical <==> obs.ammoniaMgL.value > AmmoniaCritical))
      && (forall a :: a in alerts && a.kind == HighMortality ==>
            (a.severity == Critical <==> obs.mortalityCount.value > MortalityCritical))
      && (forall a :: a in alerts && a.kind == HighFca ==> a.severity == Warning)
      && (forall a :: a in alerts ==> a.severity != Info)
  {
    var fca := Fca(obs, batch, prev);
    EvaluateRules(Readings(obs.oxygenMgL, obs.ammoniaMgL, obs.mortalityCount,
      if fca.Some? then Some(Finite(fca.value)) else None));
  }

  /** A batch of 10000 growing from 10 g to 15 g on 30 kg of feed has an FCA of 0.6. */
  lemma FcaExample()
    ensures var obs := Observation("b", "2024-03-02", Some(30.0), Some(15.0), None,
                                   None, None, None, None, None, None, None);
            var prev := ProductionRecord("b", "2024-03-01", None, Some(10.0), 0,
                                         None, None, None, None, None, None, None, None, None, "u");
            Fca(obs, Some(BatchSnapshot(Some(10000), 12000)), Some(prev)) == Some(0.6)
  {
  }

  /** Without a weight gain there is no FCA, whatever the feed. */
  lemma {:induction false} NoFcaWithoutGain(
    obs: Observation, batch: Option<BatchSnapshot>, prev: Option<ProductionRecord>)
    requires prev.Some? && obs.avgWeightG.Some? && prev.value.avgWeightG.Some?
    requires obs.avgWeightG.value <= prev.value.avgWeightG.value
    ensures Fca(obs, batch, prev).None?
    ensures FcaAsWritten(obs, batch, prev).None?
  {
  }

  /** Oxygen of 1.5 mg/L, with an organization and nothing else past a threshold, stores one critical low-oxygen alert. */
  lemma CriticalOxygenStored()
    ensures var obs := Observation("b", "2024-03-02", None, None, None,
                                   None, Some(1.5), None, None, None, None, None);
            Confirm(Some("u"), obs, None, None, Some("org")).confirmation.alerts
              == [Alert(LowOxygen, Critical)]
  {
  }

  /** Mortality of 150 takes 10000 to 9850; a count above the population floors at 0. */
  lemma MortalityExamples()
    ensures var obs := Observation("b", "2024-03-02", None, None, Some(150),
                                   None, None, None, None, None, None, None);
            && NewPopulation(obs, Some(BatchSnapshot(Some(10000), 12000))) == Some(9850)
            && NewPopulation(obs, Some(BatchSnapshot(Some(100), 12000))) == Some(0)
            && NewPopulation(obs, Some(BatchSnapshot(None, 120))) == Some(0)
  {
  }

  /**
   * A record's own mortality never changes its own biomass or FCA: both use
   * the population from before the record.
   */
  lemma OwnMortalityDoesNotAffectMetrics(
    obs: Observation, count: Option<int>, batch: Option<BatchSnapshot>, prev: Option<ProductionRecord>)
    ensures BiomassKg(obs.(mortalityCount := count), batch) == BiomassKg(obs, batch)
    ensures Fca(obs.(mortalityCount := count), batch, prev) == Fca(obs, batch, prev)
  {
    var obs' := obs.(mortalityCount := count);
    var b, b' := BiomassKg(obs, batch), BiomassKg(obs', batch);
    if b.Some? {
      assert b.value * 1000.0 == b'.value * 1000.0;
    }
    var f, f' := Fca(obs, batch, prev), Fca(obs', batch, prev);
    if f.Some? {
      assert FcaApplies(obs', batch, prev);
      var gain := GainKg(obs, batch, prev);
      assert GainKg(obs', batch, prev) == gain != 0.0;
      assert f.value * gain == f'.value * gain;
    }
  }

  /** The record the action consults as "previous": the latest by `record_date`. */
  function Latest(history: seq<ProductionRecord>): (r: Option<ProductionRecord>)
    ensures r.Some? <==> |history| > 0
    ensures r.Some? ==> r.value in history
    ensures r.Some? ==> forall x :: x in history ==> LexLe(x.recordDate, r.value.recordDate)
  {
    if |history| == 0 then None
    else
      var rest := Latest(history[1..]);
      if rest.None? then
        LexLeReflexive(history[0].recordDate);
        Some(history[0])
      else if LexLe(rest.value.recordDate, history[0].recordDate) then
        LexLeReflexive(history[0].recordDate);
        assert forall x :: x in history[1..] ==> LexLe(x.recordDate, history[0].recordDate) by {
          forall x | x in history[1..] {
            LexLeTransitive(x.recordDate, rest.value.recordDate, history[0].recordDate);
          }
        }
        Some(history[0])
      else
        LexLeTotal(rest.value.recordDate, history[0].recordDate);
        rest
  }

  /**
   * Only the latest record is consulted: when its weight is missing there is
   * no FCA, even though an earlier record has a weight that would give one.
   */
  lemma LatestWithoutWeightGivesNoFca()
    ensures var older := ProductionRecord("b", "2024-03-01", None, Some(10.0), 0,
                                          None, None, None, None, None, None, None, None, None, "u");
            var newer := ProductionRecord("b", "2024-03-02", None, None, 0,
                                              None, None, None, None, None, None, None, None, None, "u");
            var obs := Observation("b", "2024-03-03", Some(30.0), Some(15.0), None,
                                   None, None, None, None, None, None, None);
            var batch := Some(BatchSnapshot(Some(10000), 12000));
            && Fca(obs, batch, Some(older)) == Some(0.6)
            && Latest([older, newer]) == Some(newer)
            && Fca(obs, batch, Latest([older, newer])).None?
  {
    var older := ProductionRecord("b", "2024-03-01", None, Some(10.0), 0,
                                  None, None, None, None, None, None, None, None, None, "u");
    var newer := ProductionRecord("b", "2024-03-02", None, None, 0,
                                  None, None, None, None, None, None, None, None, None, "u");
    var obs := Observation("b", "2024-03-03", Some(30.0), Some(15.0), None,
                           None, None, None, None, None, None, None);
    var batch := Some(BatchSnapshot(Some(10000), 12000));
    assert FcaApplies(obs, batch, Some(older));
    assert Population(batch.value) == 10000;
    assert GainKg(obs, batch, Some(older)) == 50.0;
    assert !LexLe(newer.recordDate, older.recordDate) by {
      assert newer.recordDate[..9] == older.recordDate[..9];
    }
    LatestOfTwo(older, newer);
  }

  /** Of two records, a strictly later second one is the latest. */
  lemma LatestOfTwo(a: ProductionRecord, b: ProductionRecord)
    requires !LexLe(b.recordDate, a.recordDate)
    ensures Latest([a, b]) == Some(b)
  {
    assert [a, b][1..] == [b];
    assert Latest([b]) == Some(b);
  }

  /**
   * As written, a batch whose population has reached 0 stores no FCA (the
   * infinite ratio is written as null) yet still raises a high-FCA alert.
   */
  lemma EmptyBatchRaisesFcaAlertAsWritten()
    ensures var obs := Observation("b", "2024-03-02", Some(5.0), Some(20.0), None,
                                   None, None, None, None, None, None, None);
            var prev := ProductionRecord("b", "2024-03-01", None, Some(10.0), 0,
                                         None, None, None, None, None, None, None, None, None, "u");
            var batch := Some(BatchSnapshot(Some(0), 1000));
            var asWritten := ConfirmAsWritten(Some("u"), obs, batch, Some(prev), Some("org")).confirmation;
            var corrected := Confirm(Some("u"), obs, batch, Some(prev), Some("org")).confirmation;
            && asWritten.record.calculatedFca.None?
            && Raised(asWritten.alerts, HighFca)
            && corrected.record.calculatedFca.None?
            && !Raised(corrected.alerts, HighFca)
  {
    var obs := Observation("b", "2024-03-02", Some(5.0), Some(20.0), None,
                           None, None, None, None, None, None, None);
    var prev := ProductionRecord("b", "2024-03-01", None, Some(10.0), 0,
                                 None, None, None, None, None, None, None, None, None, "u");
    var batch := Some(BatchSnapshot(Some(0), 1000));
    EvaluateRules(Readings(None, None, None, FcaAsWritten(obs, batch, Some(prev))));
  }
}

=== FILE: public_bioremediation.dfy ===
/**
 * The public (signed-out) copy of the bioremediation calculator. It carries
 * its own dose table and lookup; the lemmas here show it gives the same
 * answers as the dashboard's calculator.
 */
module PublicDose {
  import opened Wrappers
  import opened DoseTiers
  import DoseForm

  const DoseTable: seq<Tier> := [
    Tier(UpTo(50.0), 0.5, "Muy pequeno"),
    Tier(UpTo(200.0), 0.4, "Pequeno"),
    Tier(UpTo(500.0), 0.35, "Mediano"),
    Tier(UpTo(1000.0), 0.3, "Grande"),
    Tier(Unbounded, 0.25, "Muy grande")
  ]

  function GetDose(volume: real): (t: Tier)
    ensures t in DoseTable
  {
    Lookup(DoseTable, volume)
  }

  function Calculate(length: real, width: real, depth: real): (r: Option<DoseResult>)
    ensures r.None? <==> length <= 0.0 || width <= 0.0 || depth <= 0.0
    ensures r.Some? ==> r.value.volume == length * width * depth
    ensures r.Some? ==> r.value.totalDose == r.value.volume * r.value.dose
    ensures r.Some? ==> r.value.dose == GetDose(r.value.volume).dose
                        && r.value.sizeLabel == GetDose(r.value.volume).sizeLabel
  {
    if length <= 0.0 || width <= 0.0 || depth <= 0.0 then None
    else
      var volume := length * width * depth;
      var tier := GetDose(volume);
      Some(DoseResult(volume, tier.dose, volume * tier.dose, tier.sizeLabel))
  }

  /** The public calculator only keeps the shown result. */
  datatype PublicState = PublicState(result: Option<DoseResult>)

  function HandleCalculate(s: PublicState, length: real, width: real, depth: real): (s': PublicState)
    ensures Calculate(length, width, depth).None? ==> s' == s
    ensures Calculate(length, width, depth).Some? ==> s'.result == Calculate(length, width, depth)
  {
    match Calculate(length, width, depth)
    case None => s
    case Some(r) => PublicState(Some(r))
  }

  /** The two tables are the same entry for entry. */
  lemma TablesIdentical()
    ensures DoseTable == DoseForm.DoseTable
    ensures forall i :: 0 <= i < |DoseTable| ==> DoseTable[i] == DoseForm.DoseTable[i]
  {
  }

  /** For every volume both lookups select the same tier. */
  lemma GetDoseAgrees(volume: real)
    ensures GetDose(volume) == DoseForm.GetDose(volume)
  {
    TablesIdentical();
  }

  /** For all dimensions the two calculators give the same result, or both none. */
  lemma CalculatorsAgree(length: real, width: real, depth: real)
    ensures Calculate(length, width, depth) == DoseForm.Calculate(length, width, depth)
  {
    if length > 0.0 && width > 0.0 && depth > 0.0 {
      GetDoseAgrees(length * width * depth);
    }
  }

  /** A click on either calculator, from the same shown result, shows the same result. */
  lemma HandleCalculateAgrees(s: PublicState, f: DoseForm.FormState, length: real, width: real, depth: real)
    requires s.result == f.result
    ensures HandleCalculate(s, length, width, depth).result
         == DoseForm.HandleCalculate(f, length, width, depth).result
  {
    CalculatorsAgree(length, width, depth);
  }
}

=== FILE: wrappers.dfy ===
/** The nullable values of the dashboard: `T | null` becomes `Option<T>`. */
module Wrappers {

  datatype Option<+T> = None | Some(value: T) {

    /** The value, or `default` when absent: JavaScript's `x ?? default`. */
    function GetOr(default: T): T {
      match this
      case Some(v) => v
      case None => default
    }
  }
}
